=== FILE: README.md ===
# Architect game: a Dafny model of its scoring, detection, validation and stores

The game lets a player lay out a system design on a canvas. Each component is a frontend, backend, database, cache, queue or auth service, and each has a configuration option such as `redis` or `microservices`. Connections join components. Each design is scored against one of three scenarios: chat, e-commerce or analytics. This project models the game's logic core as pure Dafny functions and proves properties of them:

- **Scoring** (`Scoring`): latency, cost, scalability, reliability and the weighted overall score. The hop cost, the 20% cache discount with its rounding, the caps and the first-of-a-type lookups are modelled exactly.
- **Anti-pattern detection** (`AntiPatterns`): the five rules, in their fixed order, with their ids, severities, messages and the blamed component.
- **Structural validation** (`Validation`): the five checks and their messages, as an error datatype rendered by `Text`.
- **The three stores** (`ArchitectureStore`, `BuildsStore`, `UIStore`): each is a reducer from a state and an action to a new state. The builds store persists through a guarded key-value storage (`SafeGet`, `SafeSet`).
- **The static catalog** (`Catalog`): the scenarios with their weights, and the component definitions with their options.
- **Shared data** (`Models`, `Seqs`, `Decimal`): the data types, the JavaScript `filter` with its laws, and decimal rendering of the latency figure.

Identifiers and timestamps are opaque values. The store actions take them as parameters (`freshId`, `now`) instead of calling a clock or a random-UUID generator. Whether a storage write succeeds is also a parameter, `writeOk`. NaN coordinates are an explicit `NaN` constructor of `Coord`.

Three behaviours of the code are worth stating outright:

- `updateComponent` refreshes `updatedAt` even when no component has the id (store/useArchitectureStore.ts:56-68). `ArchitectureStore.UpdateWithoutMatch` states this.
- The comment at lib/scoring.ts:30 says the cache "reduces database latency by 20%". The code discounts the whole total, hops included (lib/scoring.ts:50-52). `Scoring.Latency` models the code.
- One might expect that switching a cache off never lowers latency. `Scoring.DisablingOnlyCacheKeepsLatency` proves this holds when the cache is the only active one and a database has one of its own options. The expectation fails with two active caches. `Scoring.DisablingOneOfTwoCaches` shows such a design, where switching one cache off drops latency from 40 to 36 ms because the discount survives.

## Model

| member | source | states |
|---|---|---|
| Catalog.ScenarioDef | constants.ts:4-56 | each scenario record carries its own key and weights that are non-negative and sum to 1 |
| Catalog.ScenarioWeights | constants.ts:15-20 | the chat (.4/.1/.3/.2), e-commerce and analytics weights form a convex combination |
| Catalog.OptionsDistinct | constants.ts:59-113 | no component definition lists an option twice |
| Catalog.DefaultConfig | components/canvas/ArchitectureCanvas.tsx:138-145 | the option a dropped component starts with is one of its type's own options |
| Catalog.NoneOnlyForCacheAndQueue | constants.ts:89-104 | `none` is an option of the cache and the queue and of no other type |
| Catalog.OptionsOwnedByOneType | constants.ts:59-113 | two different types share no option except `none`, which only cache and queue share |
| Catalog.ComponentDefinition | constants.ts:59-113 | each type's definition lists each of the type's options once, and describes exactly those options |
| Catalog.OwnerListsOption | constants.ts:59-113 | every option of models.ts is listed by some type, so the option type is the union of the option lists |
| Catalog.OptionOwner | constants.ts:59-113 | every option but `none` belongs to exactly one type: its owner lists it, and any type listing it is its owner |
| Scoring.TablesMatchCatalog | lib/scoring.ts:4-21 | the latency and cost tables have a row for every type, keyed by exactly that type's catalog options, so the fallback to 0 fires only for an option of another type |
| Scoring.Round | lib/scoring.ts:54 | `Math.round` gives the integer within half a unit below or just under half a unit above |
| Scoring.Latency | lib/scoring.ts:32-55 | latency lies between 0 and the raw total t of base latencies plus 15 ms per connection; without an active cache and a database it is t, and with both it is round(0.8·t) = (4t+2)/5 |
| Scoring.DiscountRounding | lib/scoring.ts:50-54 | rounding 80% of an integer total equals the integer quotient (4t+2)/5 |
| Scoring.DiscountNeverTies | lib/scoring.ts:51-54 | 80% of an integer is never a half-integer, so `Math.round` never meets a tie in the discount |
| Scoring.RoundShift | lib/scoring.ts:54 | rounding commutes with adding an integer |
| Scoring.AddConnectionLatency | lib/scoring.ts:42-54 | one more connection adds exactly 15 ms, or 12 ms under the discount |
| Scoring.SumUpdate | lib/scoring.ts:36-39 | replacing one component changes the summed base latency or cost by the difference of the two entries |
| Scoring.SumOne | lib/scoring.ts:36-39 | no component's entry exceeds the sum |
| Scoring.SumTwo | lib/scoring.ts:36-39 | two different components' entries together do not exceed the sum |
| Scoring.DisablingOnlyCacheKeepsLatency | lib/scoring.ts:32-55 | switching the only active cache to `none` never lowers latency when a database has one of its own options |
| Scoring.DisablingOneOfTwoCaches | lib/scoring.ts:32-55 | with two active caches, switching one off lowers latency from 40 to 36 ms |
| Scoring.CalculateLatency | lib/scoring.ts:32-55 | the accumulating loop computes the latency metric |
| Scoring.Cost | lib/scoring.ts:62-72 | cost is the summed base costs capped at 100: it equals the sum up to 100 and is 100 above it |
| Scoring.AddComponentCost | lib/scoring.ts:62-72 | adding a component never lowers cost |
| Scoring.FirstIndex | lib/scoring.ts:84-93 | `find` stops at a component of the type with none of that type before it, or runs off the end |
| Scoring.Scalability | lib/scoring.ts:81-97 | scalability lies in 50..100 |
| Scoring.ScalabilityFullIff | lib/scoring.ts:81-97 | scalability is 100 exactly when the first backend, cache, queue and frontend are microservices, redis, kafka and cdn |
| Scoring.FirstIndexAppend | lib/scoring.ts:84-93 | appending a component never moves the first component of a type already present |
| Scoring.LaterDuplicateIgnored | lib/scoring.ts:81-97 | a further component of a type already present changes no scalability bonus |
| Scoring.Reliability | lib/scoring.ts:105-118 | reliability lies in 0..100 |
| Scoring.AddComponentReliability | lib/scoring.ts:105-118 | a further component of a type already present lowers reliability by at most 3 and never raises it |
| Scoring.WeightedBound | lib/scoring.ts:137-141 | a weighted term of a score in 0..100 lies in 0..100 times the weight |
| Scoring.WeightedSumBound | lib/scoring.ts:137-143 | under convex weights the rounded weighted sum of four scores in 0..100 lies in 0..100 |
| Scoring.OverallScore | lib/scoring.ts:125-144 | the rounded weighted score of the four metrics, with latency and cost inverted, lies in 0..100 under convex weights and metrics in range |
| Scoring.OverallScoreLatencyMonotone | lib/scoring.ts:129-143 | a lower latency never lowers the overall score |
| Scoring.CalculateMetrics | lib/scoring.ts:149-163 | every metric is in its documented range, and so is the overall score under convex weights |
| Scoring.SumShape | lib/scoring.ts:36-39 | two designs with the same types and options, in the same order, have the same table sums |
| Scoring.FirstIndexShape | lib/scoring.ts:84-93 | such designs have their first component of each type at the same index |
| Scoring.SameShapeFacts | lib/scoring.ts:45-48 | such designs agree on the cache and database tests and on every first-found option |
| Scoring.MetricsIgnoreLayout | lib/scoring.ts:149-163 | the metrics depend only on the types and options in order and on the number of connections, never on ids, positions or endpoints |
| Scoring.ScoresIgnoreLayout | lib/scoring.ts:62-118 | cost, scalability and reliability ignore ids, positions and connections |
| Scoring.LatencyIgnoresLayout | lib/scoring.ts:32-55 | latency ignores ids, positions and which components the connections join |
| Scoring.SumSnoc | lib/scoring.ts:36-39 | one more component adds its own entry to the sum |
| Scoring.ChatFixtureSums | lib/scoring.ts:4-21 | a CDN, microservices, SQL and Redis design sums to 115 ms base latency and 110 cost units |
| Scoring.ChatFixtureFirsts | lib/scoring.ts:84-115 | in that design the first of each type sits at its own index, and there is no queue or auth |
| Scoring.ChatFixtureComponentMetrics | lib/scoring.ts:32-118 | that design with three connections scores latency 128, cost 100, scalability 90 and reliability 93 |
| Scoring.ChatFixtureSumMetrics | lib/scoring.ts:32-72 | its latency is 128 ms and its cost is capped at 100 |
| Scoring.ChatFixtureBonusMetrics | lib/scoring.ts:81-118 | its scalability is 90 and its reliability is 93 |
| Scoring.ChatFixtureOverall | lib/scoring.ts:125-144 | under the chat weights those metrics give an overall score of 75 |
| Scoring.ChatFixtureMetrics | lib/scoring.ts:149-163 | the full metrics record of that design under the chat scenario |
| AntiPatterns.RuleKeysDistinct | lib/anti-patterns.ts:14-78 | different rules use different warning ids and anti-pattern tags |
| AntiPatterns.ReportedLatency | lib/anti-patterns.ts:59-60 | the latency the detector reads from the metrics record is the latency metric, never negative |
| AntiPatterns.Rule | lib/anti-patterns.ts:14-78 | one rule emits a warning exactly when its trigger holds (scenario and component tests, or latency above 300 ms), at most one, carrying the rule's message and blaming the first backend only for the monolith rule |
| AntiPatterns.RuleShape | lib/anti-patterns.ts:14-78 | each rule emits at most one warning, carrying its own id, severity and tag, and a component id only for the monolith rule |
| AntiPatterns.CacheAndMonolithExclusive | lib/anti-patterns.ts:15-41 | the cache rule and the monolith rule never both fire, since they apply to disjoint scenarios |
| AntiPatterns.PrependInOrder | lib/anti-patterns.ts:8-81 | an earlier rule's warning placed before later rules' warnings keeps rule order |
| AntiPatterns.DetectAntiPatterns | lib/anti-patterns.ts:8-81 | at most four warnings, in rule order, with distinct ids, each with its rule's id and severity, and with a component id exactly on the monolith warning |
| AntiPatterns.DetectFacts | lib/anti-patterns.ts:8-81 | the five rule outputs concatenated in order have the detector's properties |
| AntiPatterns.ConcatFacts | lib/anti-patterns.ts:12-80 | concatenating per-rule outputs in evaluation order gives a list in rule order with distinct ids |
| AntiPatterns.OrderedIdsDistinct | lib/anti-patterns.ts:21-73 | warnings in rule order that carry their rule's id have distinct ids |
| AntiPatterns.FiresIffRule | lib/anti-patterns.ts:8-81 | a rule's warning is in the output exactly when that rule fires on its own |
| AntiPatterns.MissingCacheIff | lib/anti-patterns.ts:15-27 | the no-cache warning appears exactly for a chat or e-commerce design without a non-`none` cache |
| AntiPatterns.MonolithAtScaleIff | lib/anti-patterns.ts:30-41 | the monolith warning appears exactly for an analytics design whose first backend is a monolith, and it names that backend |
| AntiPatterns.MissingQueueIff | lib/anti-patterns.ts:44-56 | the no-queue warning appears exactly for an analytics or e-commerce design without a non-`none` queue |
| AntiPatterns.ExcessiveLatencyIff | lib/anti-patterns.ts:59-67 | the high-latency warning appears exactly when latency exceeds 300 ms, and its message quotes the latency |
| AntiPatterns.MissingDatabaseIff | lib/anti-patterns.ts:70-78 | the no-database warning appears exactly for a design of more than two components with no database |
| AntiPatterns.ChatFixtureHasNoWarnings | lib/anti-patterns.ts:8-81 | the CDN, microservices, SQL and Redis chat design draws no warning |
| AntiPatterns.ChatFixtureRuleQuiet | lib/anti-patterns.ts:14-78 | none of the five rules fires on that design |
| Decimal.DigitChar | lib/anti-patterns.ts:64 | a digit value below 10 renders as the matching decimal digit character |
| Decimal.NatToString | lib/anti-patterns.ts:64 | the interpolated latency is a non-empty string of digits with no leading zero |
| Decimal.ParseNatToString | lib/anti-patterns.ts:64 | reading back the rendered digits gives the number |
| Decimal.NatToStringInjective | lib/anti-patterns.ts:64 | different latencies render differently |
| Validation.ConnectionErrors | lib/validation.ts:16-26 | a connection contributes at most two errors: one for its source exactly when no component has that id, likewise for its target, and nothing else |
| Validation.EndpointErrors | lib/validation.ts:16-26 | the connection loop reports nothing exactly when no connection dangles, at most twice as many errors as connections, and exactly the errors the connections contribute; a single connection reports its source error, then its target error |
| Validation.EndpointErrorsAppend | lib/validation.ts:16-26 | the loop over two runs of connections reports the first run's errors, then the second's, so the messages follow the connections in order, one per dangling end, repeats included |
| Validation.PositionErrors | lib/validation.ts:43-50 | the position loop reports nothing exactly when no component has a NaN coordinate, and each error names such a component; a single component reports one error exactly when it has a NaN coordinate |
| Validation.PositionErrorsAppend | lib/validation.ts:43-50 | the loop over two runs of components reports the first run's errors, then the second's, so there is one error per NaN component, in component order |
| Validation.UniquenessErrors | lib/validation.ts:29-40 | a uniqueness check reports its one error exactly when the ids repeat |
| Validation.Validate | lib/validation.ts:7-53 | the validator reports nothing exactly for a design with a component, no dangling connection, unique ids and no NaN coordinate |
| Validation.ValidateInCheckOrder | lib/validation.ts:8-52 | no error of a later check precedes one of an earlier check: the empty check, then the connection loop, the two id checks and the position loop |
| Validation.ValidatePicksOutChecks | lib/validation.ts:8-52 | each check's errors, picked out of the validator's list in order, are exactly what that check reports; with the check order this fixes the whole list |
| Validation.ChecksRanked | lib/validation.ts:8-52 | each check reports only errors of its own kind |
| Validation.InCheckOrderConcat | lib/validation.ts:8-52 | two runs in check order, the first from no later checks than the second, join in check order |
| Validation.OneCheckFilter | lib/validation.ts:8-52 | picking one check's errors out of a run from a single check gives the run or nothing |
| Validation.Messages | lib/validation.ts:7-53 | one message per error in the order found, so there are none exactly for a well-formed design |
| Validation.ValidateParts | lib/validation.ts:7-53 | an error is reported exactly when one of the five checks reports it |
| Validation.ValidateReportsEmpty | lib/validation.ts:11-13 | the empty-design error appears exactly when there are no components |
| Validation.ValidateReportsComponentIds | lib/validation.ts:29-33 | the component-id error appears exactly when two components share an id |
| Validation.ValidateReportsConnectionIds | lib/validation.ts:36-40 | the connection-id error appears exactly when two connections share an id |
| Validation.EndpointErrorsNameSources | lib/validation.ts:16-21 | a missing-source error names exactly the sources that match no component |
| Validation.EndpointErrorsNameTargets | lib/validation.ts:22-25 | a missing-target error names exactly the targets that match no component |
| Validation.ValidateReportsEndpoints | lib/validation.ts:16-26 | the validator reports a missing source, or target, exactly for each end that names no component |
| Validation.ValidateReportsPositions | lib/validation.ts:43-50 | a NaN-position error names exactly the components with a NaN coordinate |
| Validation.IsArchitectureValid | lib/validation.ts:58-60 | a design is valid exactly when it has a component, no dangling connection, unique component and connection ids, and no NaN coordinate |
| Seqs.Filter | store/useArchitectureStore.ts:77-80 | a filtered list is no longer than the list and holds exactly the elements that pass; a one-element list is kept or dropped whole, which with `FilterConcat` fixes the survivors' order |
| Seqs.FilterKeepsAll | store/useArchitectureStore.ts:77-80 | filtering with a test every element passes changes nothing |
| Seqs.FilterConcat | store/useArchitectureStore.ts:77-80 | filtering distributes over concatenation |
| Seqs.FilterDistinct | store/useUIStore.ts:46-48 | filtering a duplicate-free list keeps it duplicate-free |
| Seqs.ElementsBound | lib/validation.ts:29-33 | a set built from a list is never larger than the list |
| Seqs.SameSizeIffDistinct | lib/validation.ts:29-40 | the set built from a list is as large as the list exactly when no element repeats |
| ArchitectureStore.SetScenario | store/useArchitectureStore.ts:29-40 | choosing a scenario starts a fresh empty design under it, stamped now, with nothing selected, from any state |
| ArchitectureStore.AddComponent | store/useArchitectureStore.ts:43-53 | without a design nothing changes; otherwise the design keeps its identity and is stamped, the old components stay in place and the new one is appended at the end, and its id is then present |
| ArchitectureStore.UpdateComponent | store/useArchitectureStore.ts:56-68 | without a design nothing changes; otherwise the design is stamped, keeps its length and connections, and every component with another id is unchanged |
| ArchitectureStore.RemoveComponent | store/useArchitectureStore.ts:71-85 | without a design nothing changes; otherwise exactly the components with another id and the connections touching neither end at the id remain, in their original order, and the selection clears exactly when it named the id |
| ArchitectureStore.AddConnection | store/useArchitectureStore.ts:88-98 | without a design nothing changes; otherwise the old connections stay in place and the new one, unchecked, is appended at the end, and the components stay |
| ArchitectureStore.RemoveConnection | store/useArchitectureStore.ts:101-111 | without a design nothing changes; otherwise exactly the connections with another id remain, in their original order, and the components stay |
| ArchitectureStore.SelectComponent | store/useArchitectureStore.ts:114 | any id, or none, becomes the selection and nothing else changes |
| ArchitectureStore.ClearArchitecture | store/useArchitectureStore.ts:117-127 | clearing keeps the scenario, gives a fresh empty design stamped now for both creation and update exactly when a scenario is chosen, and drops the selection |
| ArchitectureStore.LoadArchitecture | store/useArchitectureStore.ts:130-138 | loading installs the design, adopts its scenario and drops the selection |
| ArchitectureStore.Step | store/useArchitectureStore.ts:28-138 | every action keeps a consistent state consistent |
| ArchitectureStore.ReachableConsistent | store/useArchitectureStore.ts:22-26 | every state reached from the initial state, with no scenario and no design, is consistent |
| ArchitectureStore.RunPreservesConsistent | store/useArchitectureStore.ts:28-138 | every sequence of actions keeps the design's scenario equal to the current scenario |
| ArchitectureStore.EditsNeedADesign | store/useArchitectureStore.ts:43-85 | adding, updating or removing a component without a design changes nothing |
| ArchitectureStore.EditsKeepIdentity | store/useArchitectureStore.ts:43-111 | component and connection edits keep the design's id, scenario and creation time and stamp `updatedAt` with the current time |
| ArchitectureStore.ApplyPatchIdempotent | store/useArchitectureStore.ts:56-68 | merging the same patch twice is merging it once |
| ArchitectureStore.UpdateIdempotent | store/useArchitectureStore.ts:56-68 | applying the same update twice at the same time is applying it once |
| ArchitectureStore.UpdateTouchesOnlyMatches | store/useArchitectureStore.ts:56-68 | an update merges the patch into exactly the components with the id, keeps every other component, keeps the list length and leaves the connections alone |
| ArchitectureStore.UpdateWithoutMatch | store/useArchitectureStore.ts:56-68 | an update naming no component keeps the components but still refreshes `updatedAt` |
| ArchitectureStore.UpdateKeepsIds | store/useArchitectureStore.ts:56-68 | a patch without an id keeps every component id in place |
| ArchitectureStore.KeepsOtherIds | store/useArchitectureStore.ts:71-85 | removal keeps every component whose id differs |
| ArchitectureStore.RemoveComponentCascades | store/useArchitectureStore.ts:71-85 | removal leaves no component with the id and no connection touching it, keeps everything else, and drops the selection exactly when it named the component |
| ArchitectureStore.RemoveComponentKeepsAttached | store/useArchitectureStore.ts:71-85 | a design without dangling connections keeps none after a removal |
| ArchitectureStore.WithoutAppended | store/useArchitectureStore.ts:71-85 | removing a just-appended component with a new id gives back the component list |
| ArchitectureStore.DetachUntouched | store/useArchitectureStore.ts:71-85 | the cascade drops nothing when no connection touches the id |
| ArchitectureStore.WithoutConnectionAppended | store/useArchitectureStore.ts:101-111 | removing a just-appended connection with a new id gives back the connection list |
| ArchitectureStore.AddThenRemoveComponent | store/useArchitectureStore.ts:43-85 | adding a component with a new id that no connection touches, then removing it, gives back the design with a new `updatedAt` |
| ArchitectureStore.AddThenRemoveConnection | store/useArchitectureStore.ts:88-111 | adding a connection with a new id, then removing it, gives back the design with a new `updatedAt` |
| BuildsStore.SafeGet | lib/storage.ts:10-22 | a read gives the stored list, or the default when storage is unreachable, the key is missing or the text does not parse |
| BuildsStore.SafeSet | lib/storage.ts:28-40 | a write succeeds exactly when storage is reachable and accepts it, then holds the value under the key; a failed write changes nothing, and other keys are never touched |
| BuildsStore.AddBuild | store/useBuildsStore.ts:20-24 | memory holds the old builds followed by the new one; storage mirrors memory when the write succeeds and is untouched otherwise |
| BuildsStore.RemoveBuild | store/useBuildsStore.ts:27-31 | memory keeps exactly the builds with another id, in their original order, and never grows; storage mirrors memory when the write succeeds and is untouched otherwise |
| BuildsStore.LoadBuilds | store/useBuildsStore.ts:34-49 | loading takes the stored list when one is readable and the empty list otherwise, and leaves storage alone |
| BuildsStore.SaveBuilds | store/useBuildsStore.ts:52-55 | saving keeps memory; storage mirrors it when the write succeeds and is untouched otherwise |
| BuildsStore.SafeSetThenGet | lib/storage.ts:28-40 | a write succeeds exactly when storage is reachable and accepts it, a successful write reads back as written, a failed one changes nothing, and no other key changes |
| BuildsStore.MemoryIgnoresWriteOutcome | store/useBuildsStore.ts:20-31 | the in-memory list after adding or removing does not depend on whether the write succeeded |
| BuildsStore.MutationsSync | store/useBuildsStore.ts:20-55 | a successful add, remove or save leaves storage mirroring memory, and a failed write leaves storage untouched |
| BuildsStore.SaveThenLoad | store/useBuildsStore.ts:34-55 | loading right after a successful save gives back the saved list and changes nothing |
| BuildsStore.LoadWithoutStoredList | store/useBuildsStore.ts:34-49 | loading with nothing readable stored gives the empty list |
| BuildsStore.ReloadRecoversBuilds | store/useBuildsStore.ts:16-17 | a store starts with no builds, and loading from the storage a synced store left behind recovers that store's builds |
| BuildsStore.AddThenRemoveBuild | store/useBuildsStore.ts:20-31 | adding a build with a new id and removing it gives back the list, and storage mirrors it when the last write succeeds |
| BuildsStore.OtherKeysUntouched | store/useBuildsStore.ts:5-55 | persisting builds never changes what another storage key reads as |
| UIStore.TogglePalette | store/useUIStore.ts:24-26 | flips the palette flag and nothing else |
| UIStore.ToggleConfigPanel | store/useUIStore.ts:29-31 | flips the configuration-panel flag and nothing else |
| UIStore.SetCompareMode | store/useUIStore.ts:34-37 | sets the mode and empties the selection either way, leaving the panels alone |
| UIStore.ToggleBuildForComparison | store/useUIStore.ts:40-59 | the build's membership flips exactly when it is selected or fewer than three are, a deselected build leaves the others in their order, an added build goes at the end after the earlier selections, no other build's membership changes, the cap of three is kept, and nothing else changes |
| UIStore.ClearComparisonSelection | store/useUIStore.ts:62-64 | empties the selection and nothing else |
| UIStore.ReachableValid | store/useUIStore.ts:16-21 | every state reached from the initial state, with an empty selection, has at most three distinct builds selected |
| UIStore.StepPreservesValid | store/useUIStore.ts:24-64 | every action keeps the comparison selection duplicate-free and at most three long |
| UIStore.RunPreservesValid | store/useUIStore.ts:24-64 | every sequence of actions keeps the comparison selection valid |
| UIStore.ToggleTwiceRestores | store/useUIStore.ts:40-59 | selecting a build that fits and toggling it again gives back the state |
| UIStore.TogglesAreInvolutions | store/useUIStore.ts:24-31 | each panel toggle flips its own flag, touches nothing else, and undoes itself |
| UIStore.FullSelectionRefuses | store/useUIStore.ts:50-54 | with three builds selected, an unselected build cannot be added |

## Left out

- The React components, hooks and pages, the component labels and colours, and canvas rendering are not modelled. Only the default option a dropped component gets is taken from the canvas.
- Time and identity are opaque parameters. `new Date()` and `crypto.randomUUID()` are not modelled, and reviving stored date strings into `Date` objects is the identity.
- BuildsStore.SaveThenLoad: the stored value is not serialised. In the source `JSON.stringify` writes a NaN coordinate as `null`, and loading revives only the dates, so a build with a NaN coordinate reloads with `null` there. The model gives it back unchanged, which holds in the source only for builds without a NaN coordinate.
- BuildsStore.ReloadRecoversBuilds: for the same reason, the recovered list equals the saved one only for builds without a NaN coordinate. In the source such a coordinate comes back as `null`.
- The storage is modelled after parsing. A stored value is either a list of builds or unparseable text; an empty string reads as unparseable. JSON text that parses to something other than an array is not modelled; the source would fail on it when reviving dates. The console logging of failures is not modelled.
- `safeLocalStorageRemove` and `safeLocalStorageClear` are not modelled, because no store calls them.
- The check that a position coordinate is a number at all (`typeof`) has no counterpart. Coordinates here are integers or NaN, so only the NaN check is modelled.
- A patch field set explicitly to `undefined` is modelled as an absent field.
- ArchitectureStore.SetScenario: the source reads the clock twice, once for `createdAt` and once for `updatedAt`. The model passes one time value `now` for both readings, and so does `ArchitectureStore.ClearArchitecture`. Two readings a moment apart are not modelled.
- Scoring.OverallScore: the weighted sum is computed in exact rational arithmetic rather than IEEE doubles, so a double-rounding effect at a .5 tie in the overall score is not modelled.
- AntiPatterns.ExcessiveLatencyIff: the detector reads the latency metric directly rather than through the whole metrics record. `AntiPatterns.ReportedLatency` states that the two agree.

=== FILE: antipatterns.dfy ===
/** The anti-pattern detector: five independent rules evaluated in a fixed
    order, each contributing at most one warning. The excessive-latency rule
    reads the metrics engine. */
module AntiPatterns {
  import opened Models
  import Scoring
  import Decimal
  import Catalog

  /** A rule's place in evaluation order. */
  function Rank(p: AntiPattern): nat {
    match p
    case MissingCache => 0
    case MonolithAtScale => 1
    case MissingQueue => 2
    case ExcessiveLatency => 3
    case MissingDatabase => 4
  }

  /** The id each rule gives its warning. */
  function WarningId(p: AntiPattern): string {
    match p
    case MissingCache => "no-cache"
    case MonolithAtScale => "monolith-scale"
    case MissingQueue => "no-queue"
    case ExcessiveLatency => "high-latency"
    case MissingDatabase => "no-database"
  }

  /** The severity each rule reports. */
  function RuleSeverity(p: AntiPattern): Severity {
    match p
    case MissingCache => WarningLevel
    case MonolithAtScale => WarningLevel
    case MissingQueue => InfoLevel
    case ExcessiveLatency => ErrorLevel
    case MissingDatabase => ErrorLevel
  }

  /** Different rules give their warnings different ids and tags. */
  lemma RuleKeysDistinct(p: AntiPattern, q: AntiPattern)
    requires p != q
    ensures WarningId(p) != WarningId(q)
    ensures Tag(p) != Tag(q)
  {
    assert WarningId(MissingCache)[3] == 'c' && WarningId(MissingQueue)[3] == 'q';
    assert Tag(MissingCache)[8] == 'c' && Tag(MissingQueue)[8] == 'q';
  }

  /** Some queue is configured as anything but `none`. */
  predicate HasActiveQueue(cs: seq<Component>) {
    exists i :: 0 <= i < |cs| && cs[i].kind == Queue && cs[i].config != NoneConfig
  }

  /** The message of the excessive-latency warning, quoting the figure. */
  function LatencyMessage(latency: nat): string {
    "High latency detected (" + Decimal.NatToString(latency) + "ms). Consider optimizing component connections"
  }

  /** The detector reads the latency of the full metrics record, which is
      the latency metric whatever the scenario; the rules below use the
      latter directly. */
  lemma ReportedLatency(a: Architecture, s: Scenario)
    ensures Scoring.CalculateMetrics(a, s).latency == Scoring.Latency(a) >= 0
  {
  }

  /** The condition under which each rule fires. */
  predicate Triggered(p: AntiPattern, a: Architecture, s: Scenario) {
    match p
    case MissingCache => (s.id == Chat || s.id == Ecommerce) && !Scoring.HasActiveCache(a.components)
    case MonolithAtScale => s.id == Analytics && Scoring.FirstHas(a.components, Backend, Monolith)
    case MissingQueue => (s.id == Analytics || s.id == Ecommerce) && !HasActiveQueue(a.components)
    case ExcessiveLatency => Scoring.Latency(a) > 300
    case MissingDatabase => !Scoring.HasDatabase(a.components) && |a.components| > 2
  }

  /** The fixed messages of four of the rules. */
  const CacheAdvice: string := "Consider adding a cache layer for better read performance"
  const MonolithAdvice: string := "Monolithic architecture may limit scalability for analytics workloads"
  const QueueAdvice: string := "A message queue could improve async processing capabilities"
  const DatabaseAdvice: string := "Most architectures require a database for data persistence"

  /** The message of each rule's warning. */
  function Message(p: AntiPattern, a: Architecture): string {
    match p
    case MissingCache => CacheAdvice
    case MonolithAtScale => MonolithAdvice
    case MissingQueue => QueueAdvice
    case ExcessiveLatency => LatencyMessage(Scoring.Latency(a))
    case MissingDatabase => DatabaseAdvice
  }

  /** The component a warning blames: the first backend, for the monolith
      rule only. */
  function Offender(p: AntiPattern, a: Architecture): Option<string> {
    var i := Scoring.FirstIndex(a.components, Backend);
    if p == MonolithAtScale && i < |a.components| then Some(a.components[i].id) else None
  }

  /** The output of one rule: its warning when it fires, nothing otherwise.
      The warning carries the rule's message and blames the first backend
      only for the monolith rule. */
  function Rule(p: AntiPattern, a: Architecture, s: Scenario): (r: seq<Warning>)
    ensures r != [] <==> Triggered(p, a, s)
    ensures |r| <= 1
    ensures forall w :: w in r ==> w.antiPattern == p && w.message == Message(p, a) && w.componentId == Offender(p, a)
  {
    if Triggered(p, a, s) then
      [Warning(WarningId(p), RuleSeverity(p), Message(p, a), Offender(p, a), p)]
    else []
  }

  /** What one rule may emit: at most one warning, tagged with the rule,
      with the rule's id and severity, naming a component exactly when it is
      the monolith rule. */
  predicate RuleOutput(r: seq<Warning>, p: AntiPattern) {
    && |r| <= 1
    && forall w :: w in r ==>
      && w.antiPattern == p && w.id == WarningId(p) && w.severity == RuleSeverity(p)
      && (w.componentId.Some? <==> p == MonolithAtScale)
  }

  /** Every rule's output has that shape. */
  lemma RuleShape(p: AntiPattern, a: Architecture, s: Scenario)
    ensures RuleOutput(Rule(p, a, s), p)
  {
  }

  /** The cache rule and the monolith rule look at disjoint scenarios. */
  lemma CacheAndMonolithExclusive(a: Architecture, s: Scenario)
    ensures Rule(MissingCache, a, s) == [] || Rule(MonolithAtScale, a, s) == []
  {
  }

  /** Warnings strictly ordered by the rank of their rule. */
  predicate InRuleOrder(ws: seq<Warning>) {
    forall i, j :: 0 <= i < j < |ws| ==> Rank(ws[i].antiPattern) < Rank(ws[j].antiPattern)
  }

  /** Putting the at-most-one warning of an earlier rule in front of warnings
      of later rules keeps rule order. */
  lemma PrependInOrder(r: seq<Warning>, t: seq<Warning>, p: AntiPattern)
    requires |r| <= 1 && forall w :: w in r ==> w.antiPattern == p
    requires InRuleOrder(t) && forall i :: 0 <= i < |t| ==> Rank(p) < Rank(t[i].antiPattern)
    ensures InRuleOrder(r + t)
    ensures forall i :: 0 <= i < |r + t| ==> Rank(p) <= Rank((r + t)[i].antiPattern)
  {
    var u := r + t;
    forall i | 0 <= i < |u| ensures Rank(p) <= Rank(u[i].antiPattern) {
      if i < |r| { assert u[i] in r; } else { assert u[i] == t[i - |r|]; }
    }
    forall i, j | 0 <= i < j < |u| ensures Rank(u[i].antiPattern) < Rank(u[j].antiPattern) {
      assert u[j] == t[j - |r|];
      if i < |r| { assert u[i] in r; } else { assert u[i] == t[i - |r|]; }
    }
  }

  /** `detectAntiPatterns`. Warnings come out in rule order, so no rule fires
      twice and no two warnings share an id; at most four rules apply to any
      one scenario; every warning carries its rule's id and severity; only
      the monolith warning names a component. */
  function DetectAntiPatterns(a: Architecture, s: Scenario): (ws: seq<Warning>)
    ensures |ws| <= 4
    ensures InRuleOrder(ws)
    ensures forall i, j :: 0 <= i < j < |ws| ==> ws[i].id != ws[j].id
    ensures forall w :: w in ws ==> w.id == WarningId(w.antiPattern) && w.severity == RuleSeverity(w.antiPattern)
    ensures forall w :: w in ws ==> (w.componentId.Some? <==> w.antiPattern == MonolithAtScale)
  {
    var ws := Rule(MissingCache, a, s) + Rule(MonolithAtScale, a, s) + Rule(MissingQueue, a, s)
      + Rule(ExcessiveLatency, a, s) + Rule(MissingDatabase, a, s);
    DetectFacts(a, s, ws);
    ws
  }

  lemma DetectFacts(a: Architecture, s: Scenario, ws: seq<Warning>)
    requires ws == Rule(MissingCache, a, s) + Rule(MonolithAtScale, a, s) + Rule(MissingQueue, a, s)
      + Rule(ExcessiveLatency, a, s) + Rule(MissingDatabase, a, s)
    ensures |ws| <= 4
    ensures InRuleOrder(ws)
    ensures forall i, j :: 0 <= i < j < |ws| ==> ws[i].id != ws[j].id
    ensures forall w :: w in ws ==> w.id == WarningId(w.antiPattern) && w.severity == RuleSeverity(w.antiPattern)
    ensures forall w :: w in ws ==> (w.componentId.Some? <==> w.antiPattern == MonolithAtScale)
  {
    RuleShape(MissingCache, a, s);
    RuleShape(MonolithAtScale, a, s);
    RuleShape(MissingQueue, a, s);
    RuleShape(ExcessiveLatency, a, s);
    RuleShape(MissingDatabase, a, s);
    CacheAndMonolithExclusive(a, s);
    ConcatFacts(Rule(MissingCache, a, s), Rule(MonolithAtScale, a, s), Rule(MissingQueue, a, s),
      Rule(ExcessiveLatency, a, s), Rule(MissingDatabase, a, s));
  }

  /** The five rule outputs, concatenated in evaluation order. */
  lemma ConcatFacts(r1: seq<Warning>, r2: seq<Warning>, r3: seq<Warning>, r4: seq<Warning>, r5: seq<Warning>)
    requires RuleOutput(r1, MissingCache) && RuleOutput(r2, MonolithAtScale) && RuleOutput(r3, MissingQueue)
    requires RuleOutput(r4, ExcessiveLatency) && RuleOutput(r5, MissingDatabase)
    requires r1 == [] || r2 == []
    ensures var ws := r1 + r2 + r3 + r4 + r5;
      && |ws| <= 4
      && InRuleOrder(ws)
      && (forall i, j :: 0 <= i < j < |ws| ==> ws[i].id != ws[j].id)
      && (forall w :: w in ws ==> w.id == WarningId(w.antiPattern) && w.severity == RuleSeverity(w.antiPattern))
      && (forall w :: w in ws ==> (w.componentId.Some? <==> w.antiPattern == MonolithAtScale))
  {
    var ws := r1 + r2 + r3 + r4 + r5;
    assert ws == r1 + (r2 + (r3 + (r4 + r5)));
    PrependInOrder(r5, [], MissingDatabase);
    PrependInOrder(r4, r5, ExcessiveLatency);
    PrependInOrder(r3, r4 + r5, MissingQueue);
    PrependInOrder(r2, r3 + (r4 + r5), MonolithAtScale);
    PrependInOrder(r1, r2 + (r3 + (r4 + r5)), MissingCache);
    forall w | w in ws
      ensures w.id == WarningId(w.antiPattern) && w.severity == RuleSeverity(w.antiPattern)
      ensures w.componentId.Some? <==> w.antiPattern == MonolithAtScale
    {
      assert w in r1 || w in r2 || w in r3 || w in r4 || w in r5;
    }
    OrderedIdsDistinct(ws);
  }

  /** Warnings in rule order, each carrying its rule's id, have distinct ids. */
  lemma OrderedIdsDistinct(ws: seq<Warning>)
    requires InRuleOrder(ws)
    requires forall w :: w in ws ==> w.id == WarningId(w.antiPattern)
    ensures forall i, j :: 0 <= i < j < |ws| ==> ws[i].id != ws[j].id
  {
    forall i, j | 0 <= i < j < |ws| ensures ws[i].id != ws[j].id {
      assert ws[i] in ws && ws[j] in ws;
      RuleKeysDistinct(ws[i].antiPattern, ws[j].antiPattern);
    }
  }

  /** The rule `p` produced a warning. */
  predicate Fires(ws: seq<Warning>, p: AntiPattern) {
    exists w :: w in ws && w.antiPattern == p
  }

  /** A rule's warning appears in the detector's output exactly when that
      rule, evaluated on its own, produces one: no rule masks another. */
  lemma FiresIffRule(a: Architecture, s: Scenario, p: AntiPattern)
    ensures Fires(DetectAntiPatterns(a, s), p) <==> Rule(p, a, s) != []
    ensures forall w :: w in DetectAntiPatterns(a, s) && w.antiPattern == p ==> w in Rule(p, a, s)
  {
    var ws := DetectAntiPatterns(a, s);
    var r1, r2, r3 := Rule(MissingCache, a, s), Rule(MonolithAtScale, a, s), Rule(MissingQueue, a, s);
    var r4, r5 := Rule(ExcessiveLatency, a, s), Rule(MissingDatabase, a, s);
    assert ws == r1 + r2 + r3 + r4 + r5;
    RuleShape(MissingCache, a, s);
    RuleShape(MonolithAtScale, a, s);
    RuleShape(MissingQueue, a, s);
    RuleShape(ExcessiveLatency, a, s);
    RuleShape(MissingDatabase, a, s);
    if Rule(p, a, s) != [] {
      assert Rule(p, a, s)[0] in ws;
    }
    forall w | w in ws && w.antiPattern == p ensures w in Rule(p, a, s) {
      assert w in r1 || w in r2 || w in r3 || w in r4 || w in r5;
    }
  }

  /** Rule 1 fires iff the scenario is chat or e-commerce and no cache is
      configured as anything but `none`. */
  lemma MissingCacheIff(a: Architecture, s: Scenario)
    ensures Fires(DetectAntiPatterns(a, s), MissingCache)
        <==> (s.id == Chat || s.id == Ecommerce) && !Scoring.HasActiveCache(a.components)
  {
    FiresIffRule(a, s, MissingCache);
  }

  /** Rule 2 fires iff the scenario is analytics and the first backend is a
      monolith, and its warning names that backend. */
  lemma MonolithAtScaleIff(a: Architecture, s: Scenario)
    ensures Fires(DetectAntiPatterns(a, s), MonolithAtScale)
        <==> s.id == Analytics && Scoring.FirstHas(a.components, Backend, Monolith)
    ensures forall w :: w in DetectAntiPatterns(a, s) && w.antiPattern == MonolithAtScale ==>
        w.componentId == Some(a.components[Scoring.FirstIndex(a.components, Backend)].id)
  {
    FiresIffRule(a, s, MonolithAtScale);
  }

  /** Rule 3 fires iff the scenario is analytics or e-commerce and no queue is
      configured as anything but `none`. */
  lemma MissingQueueIff(a: Architecture, s: Scenario)
    ensures Fires(DetectAntiPatterns(a, s), MissingQueue)
        <==> (s.id == Analytics || s.id == Ecommerce) && !HasActiveQueue(a.components)
  {
    FiresIffRule(a, s, MissingQueue);
  }

  /** Rule 4 fires iff the computed latency exceeds 300 ms, and its message
      quotes that latency. */
  lemma ExcessiveLatencyIff(a: Architecture, s: Scenario)
    ensures Fires(DetectAntiPatterns(a, s), ExcessiveLatency) <==> Scoring.Latency(a) > 300
    ensures forall w :: w in DetectAntiPatterns(a, s) && w.antiPattern == ExcessiveLatency ==>
        w.message == LatencyMessage(Scoring.Latency(a))
  {
    FiresIffRule(a, s, ExcessiveLatency);
  }

  /** Rule 5 fires iff there is no database among more than two components. */
  lemma MissingDatabaseIff(a: Architecture, s: Scenario)
    ensures Fires(DetectAntiPatterns(a, s), MissingDatabase)
        <==> !Scoring.HasDatabase(a.components) && |a.components| > 2
  {
    FiresIffRule(a, s, MissingDatabase);
  }

  /** The chat fixture, which has a cache and a database and a latency of
      128 ms, draws no warning. */
  lemma ChatFixtureHasNoWarnings()
    ensures DetectAntiPatterns(Scoring.ChatFixture, Catalog.ScenarioDef(Chat)) == []
  {
    ChatFixtureRuleQuiet(MissingCache);
    ChatFixtureRuleQuiet(MonolithAtScale);
    ChatFixtureRuleQuiet(MissingQueue);
    ChatFixtureRuleQuiet(ExcessiveLatency);
    ChatFixtureRuleQuiet(MissingDatabase);
  }

  lemma ChatFixtureRuleQuiet(p: AntiPattern)
    ensures !Triggered(p, Scoring.ChatFixture, Catalog.ScenarioDef(Chat))
  {
    var a, s := Scoring.ChatFixture, Catalog.ScenarioDef(Chat);
    match p
    case MissingCache =>
      assert a.components[3].kind == Cache && a.components[3].config == Redis;
    case MissingDatabase =>
      assert a.components[2].kind == Database;
    case ExcessiveLatency =>
      Scoring.ChatFixtureMetrics();
    case MonolithAtScale =>
    case MissingQueue =>
  }
}

=== FILE: architecture_store.dfy ===
/** The editor's architecture store: the chosen scenario, the design being
    edited and the selected component, with the actions the canvas and the
    panels dispatch. Each action is a pure step from one state to the next.
    The fresh ids and the clock readings an action takes are parameters. */
module ArchitectureStore {
  import opened Models
  import opened Seqs
  import Validation

  datatype State = State(
    currentScenario: Option<ScenarioType>,
    architecture: Option<Architecture>,
    selectedComponentId: Option<string>)

  const Initial := State(None, None, None)

  /** A design is only ever edited under its own scenario. */
  predicate Consistent(st: State) {
    st.architecture.Some? ==> st.currentScenario == Some(st.architecture.value.scenarioId)
  }

  /** A `Partial<ArchitectureComponent>`: the fields an update overrides. */
  datatype ComponentPatch = ComponentPatch(
    id: Option<string>,
    kind: Option<ComponentType>,
    config: Option<Config>,
    position: Option<Position>)

  function Or<T>(o: Option<T>, default: T): T {
    if o.Some? then o.value else default
  }

  /** `{ ...comp, ...updates }` */
  function ApplyPatch(c: Component, p: ComponentPatch): Component {
    Component(Or(p.id, c.id), Or(p.kind, c.kind), Or(p.config, c.config), Or(p.position, c.position))
  }

  /** A brand-new, empty design for scenario `sc`. */
  function EmptyArchitecture(sc: ScenarioType, freshId: string, now: Timestamp): Architecture {
    Architecture(freshId, sc, [], [], now, now)
  }

  /** An edit of the design in `st` made at time `now`: the scenario and the
      design's identity and creation time stay, and the design is stamped. */
  predicate Stamped(st: State, r: State, now: Timestamp)
    requires st.architecture.Some?
  {
    var a := st.architecture.value;
    && r.currentScenario == st.currentScenario
    && r.architecture.Some?
    && r.architecture.value.id == a.id
    && r.architecture.value.scenarioId == a.scenarioId
    && r.architecture.value.createdAt == a.createdAt
    && r.architecture.value.updatedAt == now
  }

  /** `setScenario`: start an empty design for the scenario and drop the
      selection, whatever was there before. */
  function SetScenario(st: State, sc: ScenarioType, freshId: string, now: Timestamp): (r: State)
    ensures Consistent(r) && r.currentScenario == Some(sc) && r.selectedComponentId.None?
    ensures r.architecture.Some? && r.architecture.value.id == freshId
    ensures r.architecture.value.components == [] && r.architecture.value.connections == []
    ensures r.architecture.value.createdAt == r.architecture.value.updatedAt == now
  {
    State(Some(sc), Some(EmptyArchitecture(sc, freshId, now)), None)
  }

  /** `addComponent`: append, and stamp the design; without a design,
      nothing happens. The new list holds the old components and `c`. */
  function AddComponent(st: State, c: Component, now: Timestamp): (r: State)
    ensures st.architecture.None? ==> r == st
    ensures st.architecture.Some? ==> Stamped(st, r, now)
    ensures st.architecture.Some? ==>
      var a, a' := st.architecture.value, r.architecture.value;
      && |a'.components| == |a.components| + 1
      && a'.components[..|a.components|] == a.components
      && a'.components[|a.components|] == c
      && (forall x :: x in a'.components <==> x in a.components || x == c)
      && HasComponentId(a'.components, c.id)
      && a'.connections == a.connections
      && r.selectedComponentId == st.selectedComponentId
  {
    if st.architecture.None? then st
    else
      var a := st.architecture.value;
      var cs := a.components + [c];
      assert cs[|a.components|] == c;
      st.(architecture := Some(a.(components := cs, updatedAt := now)))
  }

  /** The component list with every component whose id is `id` patched. */
  function PatchComponents(cs: seq<Component>, id: string, p: ComponentPatch): seq<Component> {
    seq(|cs|, i requires 0 <= i < |cs| => if cs[i].id == id then ApplyPatch(cs[i], p) else cs[i])
  }

  /** `updateComponent`: patch the matching components and stamp the design,
      whether or not any component matched. */
  function UpdateComponent(st: State, id: string, p: ComponentPatch, now: Timestamp): (r: State)
    ensures st.architecture.None? ==> r == st
    ensures st.architecture.Some? ==> Stamped(st, r, now)
    ensures st.architecture.Some? ==>
      var a, a' := st.architecture.value, r.architecture.value;
      && |a'.components| == |a.components|
      && (forall i :: 0 <= i < |a.components| && a.components[i].id != id ==> a'.components[i] == a.components[i])
      && a'.connections == a.connections
      && r.selectedComponentId == st.selectedComponentId
  {
    if st.architecture.None? then st
    else
      var a := st.architecture.value;
      st.(architecture := Some(a.(components := PatchComponents(a.components, id, p), updatedAt := now)))
  }

  /** The filter tests of the removals, one per removed id. */
  function OtherComponent(id: string): Component -> bool {
    (c: Component) => c.id != id
  }

  function NotTouching(id: string): Connection -> bool {
    (k: Connection) => k.source != id && k.target != id
  }

  function OtherConnection(id: string): Connection -> bool {
    (k: Connection) => k.id != id
  }

  /** The connections that touch neither end at `id`. */
  function Detach(ks: seq<Connection>, id: string): seq<Connection> {
    Filter(ks, NotTouching(id))
  }

  function Without(cs: seq<Component>, id: string): seq<Component> {
    Filter(cs, OtherComponent(id))
  }

  /** `removeComponent`: drop the component and every connection touching
      it, and drop the selection if it named the component. */
  function RemoveComponent(st: State, id: string, now: Timestamp): (r: State)
    ensures st.architecture.None? ==> r == st
    ensures st.architecture.Some? ==> Stamped(st, r, now)
    ensures st.architecture.Some? ==>
      var a, a' := st.architecture.value, r.architecture.value;
      && (forall x :: x in a'.components <==> x in a.components && x.id != id)
      && (forall k :: k in a'.connections <==> k in a.connections && k.source != id && k.target != id)
      && a'.components == Filter(a.components, OtherComponent(id))
      && a'.connections == Filter(a.connections, NotTouching(id))
      && (r.selectedComponentId == if st.selectedComponentId == Some(id) then None else st.selectedComponentId)
  {
    if st.architecture.None? then st
    else
      var a := st.architecture.value;
      State(st.currentScenario,
            Some(a.(components := Without(a.components, id), connections := Detach(a.connections, id), updatedAt := now)),
            if st.selectedComponentId == Some(id) then None else st.selectedComponentId)
  }

  /** `addConnection`: append, without checking the endpoints. */
  function AddConnection(st: State, k: Connection, now: Timestamp): (r: State)
    ensures st.architecture.None? ==> r == st
    ensures st.architecture.Some? ==> Stamped(st, r, now)
    ensures st.architecture.Some? ==>
      var a, a' := st.architecture.value, r.architecture.value;
      && |a'.connections| == |a.connections| + 1
      && a'.connections[..|a.connections|] == a.connections
      && a'.connections[|a.connections|] == k
      && (forall x :: x in a'.connections <==> x in a.connections || x == k)
      && a'.components == a.components
      && r.selectedComponentId == st.selectedComponentId
  {
    if st.architecture.None? then st
    else
      var a := st.architecture.value;
      st.(architecture := Some(a.(connections := a.connections + [k], updatedAt := now)))
  }

  function WithoutConnection(ks: seq<Connection>, id: string): seq<Connection> {
    Filter(ks, OtherConnection(id))
  }

  /** `removeConnection` */
  function RemoveConnection(st: State, id: string, now: Timestamp): (r: State)
    ensures st.architecture.None? ==> r == st
    ensures st.architecture.Some? ==> Stamped(st, r, now)
    ensures st.architecture.Some? ==>
      var a, a' := st.architecture.value, r.architecture.value;
      && (forall x :: x in a'.connections <==> x in a.connections && x.id != id)
      && a'.connections == Filter(a.connections, OtherConnection(id))
      && a'.components == a.components
      && r.selectedComponentId == st.selectedComponentId
  {
    if st.architecture.None? then st
    else
      var a := st.architecture.value;
      st.(architecture := Some(a.(connections := WithoutConnection(a.connections, id), updatedAt := now)))
  }

  /** `selectComponent`: any id, or none; it need not name a component. */
  function SelectComponent(st: State, id: Option<string>): (r: State)
    ensures r.selectedComponentId == id
    ensures r.architecture == st.architecture && r.currentScenario == st.currentScenario
  {
    st.(selectedComponentId := id)
  }

  /** `clearArchitecture`: a fresh empty design under the current scenario,
      or no design when no scenario is chosen. */
  function ClearArchitecture(st: State, freshId: string, now: Timestamp): (r: State)
    ensures Consistent(r) && r.currentScenario == st.currentScenario && r.selectedComponentId.None?
    ensures r.architecture.Some? <==> st.currentScenario.Some?
    ensures r.architecture.Some? ==>
      r.architecture.value.components == [] && r.architecture.value.connections == [] && r.architecture.value.id == freshId
    ensures r.architecture.Some? ==> r.architecture.value.createdAt == now && r.architecture.value.updatedAt == now
  {
    State(st.currentScenario,
          if st.currentScenario.Some? then Some(EmptyArchitecture(st.currentScenario.value, freshId, now)) else None,
          None)
  }

  /** `loadArchitecture`: adopt the design and its scenario. */
  function LoadArchitecture(st: State, a: Architecture): (r: State)
    ensures Consistent(r) && r.architecture == Some(a) && r.selectedComponentId.None?
  {
    State(Some(a.scenarioId), Some(a), None)
  }

  /** The actions of the store, with the fresh ids and times they consume. */
  datatype Action =
    | DoSetScenario(scenario: ScenarioType, freshId: string, now: Timestamp)
    | DoAddComponent(component: Component, now: Timestamp)
    | DoUpdateComponent(id: string, patch: ComponentPatch, now: Timestamp)
    | DoRemoveComponent(id: string, now: Timestamp)
    | DoAddConnection(connection: Connection, now: Timestamp)
    | DoRemoveConnection(id: string, now: Timestamp)
    | DoSelectComponent(selection: Option<string>)
    | DoClearArchitecture(freshId: string, now: Timestamp)
    | DoLoadArchitecture(loaded: Architecture)

  /** One action. Every action keeps a consistent state consistent. */
  function Step(st: State, act: Action): (r: State)
    ensures Consistent(st) ==> Consistent(r)
  {
    match act
    case DoSetScenario(sc, freshId, now) => SetScenario(st, sc, freshId, now)
    case DoAddComponent(c, now) => AddComponent(st, c, now)
    case DoUpdateComponent(id, p, now) => UpdateComponent(st, id, p, now)
    case DoRemoveComponent(id, now) => RemoveComponent(st, id, now)
    case DoAddConnection(k, now) => AddConnection(st, k, now)
    case DoRemoveConnection(id, now) => RemoveConnection(st, id, now)
    case DoSelectComponent(sel) => SelectComponent(st, sel)
    case DoClearArchitecture(freshId, now) => ClearArchitecture(st, freshId, now)
    case DoLoadArchitecture(a) => LoadArchitecture(st, a)
  }

  /** The actions applied in order. */
  function Run(st: State, acts: seq<Action>): State
    decreases |acts|
  {
    if acts == [] then st else Run(Step(st, acts[0]), acts[1..])
  }

  /** Every state reached from a consistent state is consistent. */
  lemma {:induction false} RunPreservesConsistent(st: State, acts: seq<Action>)
    requires Consistent(st)
    ensures Consistent(Run(st, acts))
    decreases |acts|
  {
    if acts != [] {
      RunPreservesConsistent(Step(st, acts[0]), acts[1..]);
    }
  }

  /** The store starts with no scenario and no design, so every state it
      reaches is consistent. */
  lemma ReachableConsistent(acts: seq<Action>)
    ensures Consistent(Run(Initial, acts))
  {
    RunPreservesConsistent(Initial, acts);
  }

  /** Before a scenario is chosen there is nothing to edit: every editing
      action leaves the state as it is. */
  lemma EditsNeedADesign(st: State, act: Action)
    requires st.architecture.None?
    requires act.DoAddComponent? || act.DoUpdateComponent? || act.DoRemoveComponent?
          || act.DoAddConnection? || act.DoRemoveConnection?
    ensures Step(st, act) == st
  {
  }

  /** Editing actions change only what they are about: the design keeps its
      id, scenario and creation time, and gets the action's time stamp. */
  lemma EditsKeepIdentity(st: State, act: Action)
    requires st.architecture.Some?
    requires act.DoAddComponent? || act.DoUpdateComponent? || act.DoRemoveComponent?
          || act.DoAddConnection? || act.DoRemoveConnection?
    ensures var r := Step(st, act);
      && r.currentScenario == st.currentScenario
      && r.architecture.Some?
      && r.architecture.value.id == st.architecture.value.id
      && r.architecture.value.scenarioId == st.architecture.value.scenarioId
      && r.architecture.value.createdAt == st.architecture.value.createdAt
      && r.architecture.value.updatedAt == act.now
  {
  }

  /** Patching a component twice with the same patch is patching it once. */
  lemma ApplyPatchIdempotent(c: Component, p: ComponentPatch)
    ensures ApplyPatch(ApplyPatch(c, p), p) == ApplyPatch(c, p)
  {
  }

  /** Repeating an update (at the same time) changes nothing more, even when
      the patch renames the component. */
  lemma UpdateIdempotent(st: State, id: string, p: ComponentPatch, now: Timestamp)
    ensures UpdateComponent(UpdateComponent(st, id, p, now), id, p, now) == UpdateComponent(st, id, p, now)
  {
    if st.architecture.Some? {
      var cs := st.architecture.value.components;
      var once := PatchComponents(cs, id, p);
      var twice := PatchComponents(once, id, p);
      forall i | 0 <= i < |cs| ensures twice[i] == once[i] {
        ApplyPatchIdempotent(cs[i], p);
      }
      assert twice == once;
    }
  }

  /** An update touches only the matching components, keeps the list's
      length and order, and leaves the connections alone. */
  lemma UpdateTouchesOnlyMatches(st: State, id: string, p: ComponentPatch, now: Timestamp)
    requires st.architecture.Some?
    ensures var a, a' := st.architecture.value, UpdateComponent(st, id, p, now).architecture.value;
      && |a'.components| == |a.components|
      && a'.connections == a.connections
      && (forall i :: 0 <= i < |a.components| && a.components[i].id != id ==> a'.components[i] == a.components[i])
      && (forall i :: 0 <= i < |a.components| && a.components[i].id == id ==> a'.components[i] == ApplyPatch(a.components[i], p))
  {
  }

  /** An update naming no component leaves the components as they were but
      still moves the design's time stamp. */
  lemma UpdateWithoutMatch(st: State, id: string, p: ComponentPatch, now: Timestamp)
    requires st.architecture.Some? && !HasComponentId(st.architecture.value.components, id)
    ensures var a' := UpdateComponent(st, id, p, now).architecture.value;
      && a'.components == st.architecture.value.components
      && a'.updatedAt == now
  {
    var cs := st.architecture.value.components;
    assert forall i :: 0 <= i < |cs| ==> cs[i].id != id;
  }

  /** An update that does not rename keeps every component's id, so unique
      ids stay unique. */
  lemma UpdateKeepsIds(st: State, id: string, p: ComponentPatch, now: Timestamp)
    requires st.architecture.Some? && p.id.None?
    ensures ComponentIds(UpdateComponent(st, id, p, now).architecture.value.components)
         == ComponentIds(st.architecture.value.components)
  {
  }

  /** A component id present before a removal, other than the removed one,
      is still present after it. */
  lemma KeepsOtherIds(cs: seq<Component>, id: string, x: string)
    requires HasComponentId(cs, x) && x != id
    ensures HasComponentId(Without(cs, id), x)
  {
    var i :| 0 <= i < |cs| && cs[i].id == x;
    assert cs[i] in Without(cs, id);
    var r := Without(cs, id);
    var j :| 0 <= j < |r| && r[j] == cs[i];
  }

  /** After a removal no component carries the id and no connection touches
      it; every other component and every connection not touching it
      survives, and the selection is dropped exactly when it named the
      removed component. */
  lemma RemoveComponentCascades(st: State, id: string, now: Timestamp)
    requires st.architecture.Some?
    ensures var a, r := st.architecture.value, RemoveComponent(st, id, now);
      && !HasComponentId(r.architecture.value.components, id)
      && (forall k :: k in r.architecture.value.connections ==> k.source != id && k.target != id)
      && (forall c :: c in a.components && c.id != id ==> c in r.architecture.value.components)
      && (forall k :: k in a.connections && k.source != id && k.target != id ==> k in r.architecture.value.connections)
      && (r.selectedComponentId.None? <==> st.selectedComponentId.None? || st.selectedComponentId == Some(id))
  {
    var r := RemoveComponent(st, id, now).architecture.value.components;
    forall i | 0 <= i < |r| ensures r[i].id != id {
      assert r[i] in r;
    }
  }

  /** Removing a component from a design with no dangling connection leaves
      none dangling: the cascade takes the component's connections with it. */
  lemma RemoveComponentKeepsAttached(st: State, id: string, now: Timestamp)
    requires st.architecture.Some?
    requires Validation.NoDanglingEndpoints(st.architecture.value.connections, st.architecture.value.components)
    ensures var a' := RemoveComponent(st, id, now).architecture.value;
      Validation.NoDanglingEndpoints(a'.connections, a'.components)
  {
    var a := st.architecture.value;
    var a' := RemoveComponent(st, id, now).architecture.value;
    forall i | 0 <= i < |a'.connections| ensures Validation.Attached(a'.connections[i], a'.components) {
      var k := a'.connections[i];
      assert k in a'.connections;
      assert k in a.connections && k.source != id && k.target != id;
      var j :| 0 <= j < |a.connections| && a.connections[j] == k;
      assert Validation.Attached(a.connections[j], a.components);
      KeepsOtherIds(a.components, id, k.source);
      KeepsOtherIds(a.components, id, k.target);
    }
  }

  /** Removing the id of the component just appended, when no other
      component has it, gives back the list before the append. */
  lemma WithoutAppended(cs: seq<Component>, c: Component)
    requires !HasComponentId(cs, c.id)
    ensures Without(cs + [c], c.id) == cs
  {
    var keep := OtherComponent(c.id);
    assert forall i :: 0 <= i < |cs| ==> keep(cs[i]);
    FilterConcat(cs, [c], keep);
    FilterKeepsAll(cs, keep);
    assert !keep(c);
    assert Filter([c], keep) == Filter([c][1..], keep);
  }

  /** Detaching an id no connection touches changes nothing. */
  lemma DetachUntouched(ks: seq<Connection>, id: string)
    requires forall i :: 0 <= i < |ks| ==> ks[i].source != id && ks[i].target != id
    ensures Detach(ks, id) == ks
  {
    var keep := NotTouching(id);
    assert forall i :: 0 <= i < |ks| ==> keep(ks[i]);
    FilterKeepsAll(ks, keep);
  }

  /** Removing the id of the connection just appended, when no other
      connection has it, gives back the list before the append. */
  lemma WithoutConnectionAppended(ks: seq<Connection>, k: Connection)
    requires forall i :: 0 <= i < |ks| ==> ks[i].id != k.id
    ensures WithoutConnection(ks + [k], k.id) == ks
  {
    var keep := OtherConnection(k.id);
    assert forall i :: 0 <= i < |ks| ==> keep(ks[i]);
    FilterConcat(ks, [k], keep);
    FilterKeepsAll(ks, keep);
    assert !keep(k);
    assert Filter([k], keep) == Filter([k][1..], keep);
  }

  /** Adding a component under a new id and then removing it gives back the
      design's components and connections: the only trace is the time stamp. */
  lemma AddThenRemoveComponent(st: State, c: Component, now1: Timestamp, now2: Timestamp)
    requires st.architecture.Some?
    requires !HasComponentId(st.architecture.value.components, c.id)
    requires forall i :: 0 <= i < |st.architecture.value.connections| ==>
      st.architecture.value.connections[i].source != c.id && st.architecture.value.connections[i].target != c.id
    ensures RemoveComponent(AddComponent(st, c, now1), c.id, now2).architecture
         == Some(st.architecture.value.(updatedAt := now2))
  {
    WithoutAppended(st.architecture.value.components, c);
    DetachUntouched(st.architecture.value.connections, c.id);
  }

  /** Adding a connection under a new id and then removing it gives back the
      design's connections. */
  lemma AddThenRemoveConnection(st: State, k: Connection, now1: Timestamp, now2: Timestamp)
    requires st.architecture.Some?
    requires forall i :: 0 <= i < |st.architecture.value.connections| ==> st.architecture.value.connections[i].id != k.id
    ensures RemoveConnection(AddConnection(st, k, now1), k.id, now2).architecture
         == Some(st.architecture.value.(updatedAt := now2))
  {
    WithoutConnectionAppended(st.architecture.value.connections, k);
  }
}

=== FILE: builds_store.dfy ===
/** The saved-builds store and the guarded browser storage it persists to.
    Storage is a value: whether it is reachable at all (it is not during
    server rendering) and what each key holds. Whether a write succeeds is a
    parameter, standing for a full quota or a refusing browser. */
module BuildsStore {
  import opened Models
  import opened Seqs

  /** What a storage key holds once read back and parsed: a list of builds,
      or text that does not parse (or is empty), which reads as absent. */
  datatype Entry = BuildList(builds: seq<Build>) | Malformed

  datatype Storage = Storage(available: bool, entries: map<string, Entry>)

  /** The one key the store uses. */
  const BuildsKey: string := "architect-game-builds"

  /** `safeLocalStorageGet`: the stored list, or the default when storage is
      unreachable, the key is missing or its text does not parse. */
  function SafeGet(st: Storage, key: string, default: seq<Build>): (r: seq<Build>)
    ensures !st.available || key !in st.entries || st.entries[key].Malformed? ==> r == default
    ensures st.available && key in st.entries && st.entries[key].BuildList? ==> r == st.entries[key].builds
  {
    if !st.available then default
    else if key !in st.entries then default
    else match st.entries[key]
      case BuildList(bs) => bs
      case Malformed => default
  }

  /** `safeLocalStorageSet`: the storage after the attempt and whether it
      succeeded. A refused write changes nothing. */
  function SafeSet(st: Storage, key: string, value: seq<Build>, writeOk: bool): (r: (Storage, bool))
    ensures r.1 <==> st.available && writeOk
    ensures r.1 ==> key in r.0.entries && r.0.entries[key] == BuildList(value)
    ensures !r.1 ==> r.0 == st
    ensures r.0.available == st.available
    ensures forall k :: k != key ==> (k in r.0.entries <==> k in st.entries)
    ensures forall k :: k != key && k in st.entries ==> r.0.entries[k] == st.entries[k]
  {
    if !st.available || !writeOk then (st, false)
    else (st.(entries := st.entries[key := BuildList(value)]), true)
  }

  /** A write succeeds exactly when storage is reachable and accepts it; a
      successful write is read back as written, a failed one leaves the
      storage as it was, and no other key is touched either way. */
  lemma SafeSetThenGet(st: Storage, key: string, value: seq<Build>, writeOk: bool, default: seq<Build>)
    ensures var (st', ok) := SafeSet(st, key, value, writeOk);
      && (ok <==> st.available && writeOk)
      && (ok ==> SafeGet(st', key, default) == value)
      && (!ok ==> st' == st)
      && st'.available == st.available
      && (forall k :: k != key ==> SafeGet(st', k, default) == SafeGet(st, k, default))
  {
  }

  datatype State = State(builds: seq<Build>, storage: Storage)

  /** The in-memory list starts empty; the store does not read storage until
      asked to. */
  function Init(storage: Storage): State {
    State([], storage)
  }

  /** The filter test of `removeBuild`. */
  function OtherBuild(id: string): Build -> bool {
    (b: Build) => b.id != id
  }

  /** `addBuild`: append, then persist the new list. Memory holds the old
      builds and `b` whatever the write does; storage mirrors it when the
      write succeeds and is untouched otherwise. */
  function AddBuild(st: State, b: Build, writeOk: bool): (r: State)
    ensures |r.builds| == |st.builds| + 1 && r.builds[..|st.builds|] == st.builds && r.builds[|st.builds|] == b
    ensures st.storage.available && writeOk ==> Synced(r)
    ensures !(st.storage.available && writeOk) ==> r.storage == st.storage
  {
    var builds := st.builds + [b];
    State(builds, SafeSet(st.storage, BuildsKey, builds, writeOk).0)
  }

  /** `removeBuild`: drop every build with the id, then persist. */
  function RemoveBuild(st: State, id: string, writeOk: bool): (r: State)
    ensures |r.builds| <= |st.builds|
    ensures forall x :: x in r.builds <==> x in st.builds && x.id != id
    ensures r.builds == Filter(st.builds, OtherBuild(id))
    ensures st.storage.available && writeOk ==> Synced(r)
    ensures !(st.storage.available && writeOk) ==> r.storage == st.storage
  {
    var builds := Filter(st.builds, OtherBuild(id));
    State(builds, SafeSet(st.storage, BuildsKey, builds, writeOk).0)
  }

  /** `loadBuilds`: replace the in-memory list with the stored one, or with
      the empty list when nothing can be read. Reviving the stored date
      strings is the identity here, since timestamps are opaque values. */
  function LoadBuilds(st: State): (r: State)
    ensures r.storage == st.storage
    ensures st.storage.available && BuildsKey in st.storage.entries && st.storage.entries[BuildsKey].BuildList? ==>
      r.builds == st.storage.entries[BuildsKey].builds
    ensures !(st.storage.available && BuildsKey in st.storage.entries && st.storage.entries[BuildsKey].BuildList?) ==>
      r.builds == []
  {
    st.(builds := SafeGet(st.storage, BuildsKey, []))
  }

  /** `saveBuilds`: persist the in-memory list as it is. */
  function SaveBuilds(st: State, writeOk: bool): (r: State)
    ensures r.builds == st.builds
    ensures st.storage.available && writeOk ==> Synced(r)
    ensures !(st.storage.available && writeOk) ==> r.storage == st.storage
  {
    st.(storage := SafeSet(st.storage, BuildsKey, st.builds, writeOk).0)
  }

  /** The stored list mirrors the in-memory one. */
  predicate Synced(st: State) {
    st.storage.available && SafeGet(st.storage, BuildsKey, []) == st.builds
  }

  /** The in-memory effect of adding and removing does not depend on whether
      the write went through. */
  lemma MemoryIgnoresWriteOutcome(st: State, b: Build, id: string)
    ensures AddBuild(st, b, true).builds == AddBuild(st, b, false).builds == st.builds + [b]
    ensures RemoveBuild(st, id, true).builds == RemoveBuild(st, id, false).builds
  {
  }

  /** Every mutation that persists successfully leaves memory and storage in
      step; one that fails leaves the storage untouched. */
  lemma MutationsSync(st: State, b: Build, id: string, writeOk: bool)
    requires st.storage.available
    ensures writeOk ==> Synced(AddBuild(st, b, writeOk)) && Synced(RemoveBuild(st, id, writeOk)) && Synced(SaveBuilds(st, writeOk))
    ensures !writeOk ==> AddBuild(st, b, writeOk).storage == st.storage && RemoveBuild(st, id, writeOk).storage == st.storage
  {
  }

  /** Saving and then loading gives back the list that was saved. */
  lemma SaveThenLoad(st: State)
    requires st.storage.available
    ensures LoadBuilds(SaveBuilds(st, true)) == SaveBuilds(st, true)
    ensures LoadBuilds(SaveBuilds(st, true)).builds == st.builds
  {
  }

  /** Loading when nothing readable is stored empties the list. */
  lemma LoadWithoutStoredList(st: State)
    requires !st.storage.available || BuildsKey !in st.storage.entries || st.storage.entries[BuildsKey].Malformed?
    ensures LoadBuilds(st).builds == []
    ensures LoadBuilds(st).storage == st.storage
  {
  }

  /** Adding a build under a new id and removing it again gives back the
      list, in memory and, when both writes succeed, in storage. */
  lemma AddThenRemoveBuild(st: State, b: Build, ok1: bool, ok2: bool)
    requires forall i :: 0 <= i < |st.builds| ==> st.builds[i].id != b.id
    ensures RemoveBuild(AddBuild(st, b, ok1), b.id, ok2).builds == st.builds
    ensures st.storage.available && ok2 ==> Synced(RemoveBuild(AddBuild(st, b, ok1), b.id, ok2))
  {
    var keep := OtherBuild(b.id);
    assert forall i :: 0 <= i < |st.builds| ==> keep(st.builds[i]);
    FilterConcat(st.builds, [b], keep);
    FilterKeepsAll(st.builds, keep);
    assert !keep(b);
    assert Filter([b], keep) == Filter([b][1..], keep);
  }

  /** Persisting builds touches no storage key but the store's own. */
  lemma OtherKeysUntouched(st: State, b: Build, id: string, writeOk: bool, key: string)
    requires key != BuildsKey
    ensures SafeGet(AddBuild(st, b, writeOk).storage, key, []) == SafeGet(st.storage, key, [])
    ensures SafeGet(RemoveBuild(st, id, writeOk).storage, key, []) == SafeGet(st.storage, key, [])
    ensures SafeGet(SaveBuilds(st, writeOk).storage, key, []) == SafeGet(st.storage, key, [])
  {
    SafeSetThenGet(st.storage, BuildsKey, st.builds + [b], writeOk, []);
    SafeSetThenGet(st.storage, BuildsKey, Filter(st.builds, OtherBuild(id)), writeOk, []);
    SafeSetThenGet(st.storage, BuildsKey, st.builds, writeOk, []);
  }

  /** A store started on the storage a synced store left behind loads that
      store's builds: the list survives a reload of the page. */
  lemma ReloadRecoversBuilds(prev: State)
    requires Synced(prev)
    ensures Init(prev.storage).builds == []
    ensures LoadBuilds(Init(prev.storage)).builds == prev.builds
  {
  }
}

=== FILE: catalog.dfy ===
/** The static catalog: the three scenario definitions with their weights and
    the per-type component definitions (valid options and their descriptions),
    plus the default option the canvas gives a freshly placed component.
    Display names of component types and colours are presentation and are not
    part of this model. */
module Catalog {
  import opened Models
  import opened Seqs

  /** The `SCENARIOS` record, looked up by key. */
  function ScenarioDef(s: ScenarioType): (r: Scenario)
    ensures r.id == s
    ensures ConvexWeights(r.weights)
  {
    match s
    case Chat => Scenario(Chat, ChatName, ChatDescription, ChatRequirements, ScenarioWeights(Chat))
    case Ecommerce => Scenario(Ecommerce, EcommerceName, EcommerceDescription, EcommerceRequirements, ScenarioWeights(Ecommerce))
    case Analytics => Scenario(Analytics, AnalyticsName, AnalyticsDescription, AnalyticsRequirements, ScenarioWeights(Analytics))
  }

  const ChatName: string := "Real-Time Chat Application"
  const ChatDescription: string := "Design a system for instant messaging with presence and notifications"
  const ChatRequirements: seq<string> :=
    ["Low latency (<100ms)", "High availability", "Real-time updates", "Message persistence"]

  const EcommerceName: string := "E-Commerce Platform"
  const EcommerceDescription: string := "Design a scalable online shopping system with inventory and payments"
  const EcommerceRequirements: seq<string> :=
    ["High reliability", "Transaction consistency", "Search performance", "Peak load handling"]

  const AnalyticsName: string := "Analytics Dashboard"
  const AnalyticsDescription: string := "Design a system for processing and visualizing large datasets"
  const AnalyticsRequirements: seq<string> :=
    ["High throughput", "Batch processing", "Data aggregation", "Query performance"]

  /** Each scenario's weights, in the order latency, cost, scalability,
      reliability. Every scenario's weights form a weighted average. */
  function ScenarioWeights(s: ScenarioType): (w: Weights)
    ensures ConvexWeights(w)
  {
    match s
    case Chat => Weights(0.4, 0.1, 0.3, 0.2)
    case Ecommerce => Weights(0.2, 0.2, 0.3, 0.3)
    case Analytics => Weights(0.1, 0.3, 0.4, 0.2)
  }

  datatype Definition = Definition(name: string, options: seq<Config>, descriptions: map<Config, string>)

  /** The `COMPONENT_DEFINITIONS` record, looked up by key: it lists the
      type's options once each and describes exactly those options. */
  function ComponentDefinition(t: ComponentType): (d: Definition)
    ensures Distinct(d.options)
    ensures forall c :: c in d.options <==> ValidConfig(t, c)
    ensures d.descriptions.Keys == Elements(d.options)
  {
    OptionsDistinct(t);
    Definition(DisplayName(t), Options(t), map c | c in Options(t) :: Description(c, t))
  }

  function DisplayName(t: ComponentType): string {
    match t
    case Frontend => "Frontend"
    case Backend => "Backend"
    case Database => "Database"
    case Cache => "Cache"
    case Queue => "Message Queue"
    case Auth => "Authentication"
  }

  /** The description of option `c` in the definition of type `t`; `none`
      reads differently for caches and queues. */
  function Description(c: Config, t: ComponentType): string {
    match c
    case Spa => "Single Page Application - Client-side rendering"
    case Ssr => "Server-Side Rendering - Better SEO and initial load"
    case Cdn => "Content Delivery Network - Global edge caching"
    case Monolith => "Monolithic Architecture - Simple deployment, shared resources"
    case Microservices => "Microservices - Independent scaling, higher complexity"
    case Sql => "SQL Database - ACID transactions, structured data"
    case NoSql => "NoSQL Database - Flexible schema, horizontal scaling"
    case Redis => "Redis Cache - In-memory data store for fast reads"
    case Kafka => "Apache Kafka - Distributed event streaming"
    case NoneConfig => if t == Queue then "No Queue - Synchronous processing" else "No Cache - Direct database access"
    case Jwt => "JWT Tokens - Stateless authentication"
    case OAuth => "OAuth 2.0 - Third-party authentication"
  }

  /** Every type lists each option once. */
  lemma OptionsDistinct(t: ComponentType)
    ensures Distinct(Options(t))
  {
  }

  /** The `options` list of each type's definition. */
  function Options(t: ComponentType): seq<Config> {
    match t
    case Frontend => [Spa, Ssr, Cdn]
    case Backend => [Monolith, Microservices]
    case Database => [Sql, NoSql]
    case Cache => [Redis, NoneConfig]
    case Queue => [Kafka, NoneConfig]
    case Auth => [Jwt, OAuth]
  }

  /** The option set of a type, as the scoring tables' key sets are compared with. */
  function OptionSet(t: ComponentType): set<Config> {
    Elements(Options(t))
  }

  /** A component of type `t` may carry configuration `c`. */
  predicate ValidConfig(t: ComponentType, c: Config) {
    c in Options(t)
  }

  /** The option the canvas gives a component when it is dropped. */
  function DefaultConfig(t: ComponentType): (c: Config)
    ensures ValidConfig(t, c)
  {
    match t
    case Frontend => Spa
    case Backend => Monolith
    case Database => Sql
    case Cache => Redis
    case Queue => Kafka
    case Auth => Jwt
  }

  /** `none` is an option of exactly the cache and queue types. */
  lemma NoneOnlyForCacheAndQueue(t: ComponentType)
    ensures ValidConfig(t, NoneConfig) <==> t == Cache || t == Queue
  {
  }

  /** Each type has its own options: two different types share only `none`. */
  lemma OptionsOwnedByOneType(t1: ComponentType, t2: ComponentType, c: Config)
    requires t1 != t2 && ValidConfig(t1, c) && ValidConfig(t2, c)
    ensures c == NoneConfig
    ensures (t1 == Cache && t2 == Queue) || (t1 == Queue && t2 == Cache)
  {
    if c != NoneConfig {
      OptionOwner(t1, c);
      OptionOwner(t2, c);
      assert false;
    }
    NoneOnlyForCacheAndQueue(t1);
    NoneOnlyForCacheAndQueue(t2);
  }

  /** The one type whose options include `c`, for every option but `none`. */
  function OwnerOf(c: Config): ComponentType {
    match c
    case Spa | Ssr | Cdn => Frontend
    case Monolith | Microservices => Backend
    case Sql | NoSql => Database
    case Redis | NoneConfig => Cache
    case Kafka => Queue
    case Jwt | OAuth => Auth
  }

  /** Every option is listed by its owner, so the options of `models.ts` are
      exactly the union of the types' option lists. */
  lemma OwnerListsOption(c: Config)
    ensures ValidConfig(OwnerOf(c), c)
  {
  }

  /** Every option but `none` belongs to exactly one type: its owner lists
      it, and any type listing it is its owner. */
  lemma OptionOwner(t: ComponentType, c: Config)
    requires ValidConfig(t, c) && c != NoneConfig
    ensures t == OwnerOf(c)
    ensures ValidConfig(OwnerOf(c), c)
  {
    OwnerListsOption(c);
    match t
    case Frontend => assert c in [Spa, Ssr, Cdn];
    case Backend => assert c in [Monolith, Microservices];
    case Database => assert c in [Sql, NoSql];
    case Cache => assert c in [Redis, NoneConfig];
    case Queue => assert c in [Kafka, NoneConfig];
    case Auth => assert c in [Jwt, OAuth];
  }
}

=== FILE: decimal.dfy ===
/** Decimal rendering of a non-negative integer, as a template literal prints
    a number, and the reading that recovers it. */
module Decimal {

  predicate IsDigit(ch: char) {
    '0' <= ch <= '9'
  }

  function DigitChar(d: nat): (ch: char)
    requires d < 10
    ensures IsDigit(ch) && ch as int - '0' as int == d
  {
    ('0' as int + d) as char
  }

  /** The decimal digits of `n`, most significant first, with no leading zero. */
  function NatToString(n: nat): (s: string)
    ensures |s| >= 1
    ensures forall i :: 0 <= i < |s| ==> IsDigit(s[i])
    ensures s[0] != '0' || n == 0
  {
    if n < 10 then [DigitChar(n)] else NatToString(n / 10) + [DigitChar(n % 10)]
  }

  /** The value of a string of decimal digits. */
  function ParseDigits(s: string): nat
    requires forall i :: 0 <= i < |s| ==> IsDigit(s[i])
  {
    if s == [] then 0
    else
      assert IsDigit(s[|s| - 1]);
      ParseDigits(s[..|s| - 1]) * 10 + (s[|s| - 1] as int - '0' as int)
  }

  /** Reading the rendered digits gives back the number: the rendering loses
      nothing. */
  lemma {:induction false} ParseNatToString(n: nat)
    ensures ParseDigits(NatToString(n)) == n
  {
    var s := NatToString(n);
    if n >= 10 {
      ParseNatToString(n / 10);
      assert s[..|s| - 1] == NatToString(n / 10);
    }
  }

  /** Different numbers render differently. */
  lemma NatToStringInjective(m: nat, n: nat)
    requires NatToString(m) == NatToString(n)
    ensures m == n
  {
    ParseNatToString(m);
    ParseNatToString(n);
  }
}

=== FILE: models.dfy ===
/** The entities of the architecture game: a design is a graph of typed
    components joined by directed connections, scored against a scenario's
    weights; metrics and warnings are derived from it, and builds are saved
    snapshots of a design together with its metrics. */
module Models {

  datatype Option<+T> = None | Some(value: T)

  /** The six kinds of component a user can place. */
  datatype ComponentType = Frontend | Backend | Database | Cache | Queue | Auth

  /** The three scenarios a design is scored against. */
  datatype ScenarioType = Chat | Ecommerce | Analytics

  /** A component's configuration. The field is typed as the union of every
      type's options, so a type/option mismatch such as a frontend configured
      as `kafka` is representable. `NoneConfig` is the option spelled `none`,
      shared by caches and queues. */
  datatype Config =
    | Spa | Ssr | Cdn                 // frontend
    | Monolith | Microservices        // backend
    | Sql | NoSql                     // database
    | Redis | Kafka | NoneConfig      // cache, queue
    | Jwt | OAuth                     // auth

  /** A layout coordinate. `NaN` is the one non-finite number the validator
      looks for; scoring never reads positions. */
  datatype Coord = Num(n: int) | NaN

  datatype Position = Position(x: Coord, y: Coord)

  /** An instant, treated as an opaque value: it is stored and copied, never
      compared or computed with. */
  type Timestamp = int

  datatype Component = Component(id: string, kind: ComponentType, config: Config, position: Position)

  /** A directed edge between two components, named by their ids. */
  datatype Connection = Connection(id: string, source: string, target: string)

  datatype Architecture = Architecture(
    id: string,
    scenarioId: ScenarioType,
    components: seq<Component>,
    connections: seq<Connection>,
    createdAt: Timestamp,
    updatedAt: Timestamp)

  /** Latency is in milliseconds; the other four are documented as 0..100. */
  datatype Metrics = Metrics(latency: int, cost: int, scalability: int, reliability: int, overallScore: int)

  /** The documented ranges of a metrics record. */
  predicate MetricsInRange(m: Metrics) {
    && 0 <= m.latency
    && 0 <= m.cost <= 100
    && 0 <= m.scalability <= 100
    && 0 <= m.reliability <= 100
    && 0 <= m.overallScore <= 100
  }

  datatype Severity = ErrorLevel | WarningLevel | InfoLevel

  /** The five anti-pattern rules, in evaluation order. */
  datatype AntiPattern = MissingCache | MonolithAtScale | MissingQueue | ExcessiveLatency | MissingDatabase

  /** The stable string key each rule is known by. */
  function Tag(p: AntiPattern): string {
    match p
    case MissingCache => "missing-cache"
    case MonolithAtScale => "monolith-at-scale"
    case MissingQueue => "missing-queue"
    case ExcessiveLatency => "excessive-latency"
    case MissingDatabase => "missing-database"
  }

  /** A diagnostic; `antiPattern` is the rule that fired (known by its `Tag`)
      and `componentId` optionally names the offending component. */
  datatype Warning = Warning(id: string, severity: Severity, message: string, componentId: Option<string>, antiPattern: AntiPattern)

  datatype Weights = Weights(latency: real, cost: real, scalability: real, reliability: real)

  /** The convention scenario weights follow: non-negative and summing to 1.
      Nothing in the program enforces it. */
  predicate ConvexWeights(w: Weights) {
    && 0.0 <= w.latency && 0.0 <= w.cost && 0.0 <= w.scalability && 0.0 <= w.reliability
    && w.latency + w.cost + w.scalability + w.reliability == 1.0
  }

  datatype Scenario = Scenario(
    id: ScenarioType,
    name: string,
    description: string,
    requirements: seq<string>,
    weights: Weights)

  /** A named snapshot of a design and its metrics at save time. */
  datatype Build = Build(id: string, name: string, architecture: Architecture, metrics: Metrics, savedAt: Timestamp)

  /** Some component of `cs` has id `id`. */
  predicate HasComponentId(cs: seq<Component>, id: string) {
    exists i :: 0 <= i < |cs| && cs[i].id == id
  }

  /** `components.map(c => c.id)` */
  function ComponentIds(cs: seq<Component>): seq<string> {
    seq(|cs|, i requires 0 <= i < |cs| => cs[i].id)
  }

  /** `connections.map(c => c.id)` */
  function ConnectionIds(ks: seq<Connection>): seq<string> {
    seq(|ks|, i requires 0 <= i < |ks| => ks[i].id)
  }
}

=== FILE: scoring.dfy ===
/** The metrics engine: maps a design and a scenario's weights to latency,
    cost, scalability, reliability and a weighted overall score. Every metric
    is a table lookup, a sum, a clamp or a weighted average; none reads
    component ids, positions or connection endpoints. */
module Scoring {
  import opened Models
  import Catalog

  /** Milliseconds added per connection. */
  const HopLatency: nat := 15

  type Table = map<ComponentType, map<Config, nat>>

  /** Base latency per (type, option), in milliseconds. */
  const BaseLatency: Table := map[
    Frontend := map[Spa := 50, Ssr := 100, Cdn := 20],
    Backend := map[Monolith := 30, Microservices := 50],
    Database := map[Sql := 40, NoSql := 30],
    Cache := map[Redis := 5, NoneConfig := 0],
    Queue := map[Kafka := 20, NoneConfig := 0],
    Auth := map[Jwt := 10, OAuth := 30]]

  /** Base cost per (type, option), in relative units. */
  const BaseCost: Table := map[
    Frontend := map[Spa := 5, Ssr := 15, Cdn := 25],
    Backend := map[Monolith := 20, Microservices := 40],
    Database := map[Sql := 30, NoSql := 25],
    Cache := map[Redis := 15, NoneConfig := 0],
    Queue := map[Kafka := 20, NoneConfig := 0],
    Auth := map[Jwt := 5, OAuth := 10]]

  /** A component's table entry; a (type, option) pair the table lacks
      contributes 0, as the `|| 0` fallback does. */
  function Lookup(table: Table, c: Component): nat {
    if c.kind in table && c.config in table[c.kind] then table[c.kind][c.config] else 0
  }

  /** The table entries of `cs` summed in list order. */
  function Sum(table: Table, cs: seq<Component>): nat {
    if cs == [] then 0 else Sum(table, cs[..|cs| - 1]) + Lookup(table, cs[|cs| - 1])
  }

  /** Each type's option set is exactly the key set of its row in both
      tables, so the fallback to 0 only fires for a type/option mismatch. */
  lemma TablesMatchCatalog(t: ComponentType)
    ensures t in BaseLatency && BaseLatency[t].Keys == Catalog.OptionSet(t)
    ensures t in BaseCost && BaseCost[t].Keys == Catalog.OptionSet(t)
  {
    match t
    case Frontend => assert Catalog.OptionSet(t) == {Spa, Ssr, Cdn};
    case Backend => assert Catalog.OptionSet(t) == {Monolith, Microservices};
    case Database => assert Catalog.OptionSet(t) == {Sql, NoSql};
    case Cache => assert Catalog.OptionSet(t) == {Redis, NoneConfig};
    case Queue => assert Catalog.OptionSet(t) == {Kafka, NoneConfig};
    case Auth => assert Catalog.OptionSet(t) == {Jwt, OAuth};
  }

  /** Some cache is configured as anything but `none`. */
  predicate HasActiveCache(cs: seq<Component>) {
    exists i :: 0 <= i < |cs| && cs[i].kind == Cache && cs[i].config != NoneConfig
  }

  predicate HasDatabase(cs: seq<Component>) {
    exists i :: 0 <= i < |cs| && cs[i].kind == Database
  }

  /** The 20% latency discount applies: an active cache and a database. */
  predicate CacheDiscount(cs: seq<Component>) {
    HasActiveCache(cs) && HasDatabase(cs)
  }

  /** `Math.round`: the nearest integer, halves rounded up. */
  function Round(x: real): (r: int)
    ensures r as real - 0.5 <= x < r as real + 0.5
  {
    (x + 0.5).Floor
  }

  /** Latency before the cache discount: base latencies plus one hop per connection. */
  function RawLatency(a: Architecture): nat {
    Sum(BaseLatency, a.components) + HopLatency * |a.connections|
  }

  /** The latency metric. The discount never raises the figure, never drives
      it below 0, and without it the raw total is reported unchanged; with it
      the figure is four fifths of the raw total, rounded half up. */
  function Latency(a: Architecture): (r: int)
    ensures 0 <= r <= RawLatency(a)
    ensures !CacheDiscount(a.components) ==> r == RawLatency(a)
    ensures CacheDiscount(a.components) ==> r == (4 * RawLatency(a) + 2) / 5
  {
    var t := RawLatency(a);
    DiscountRounding(t);
    if CacheDiscount(a.components) then Round(t as real * 0.8) else t
  }

  /** The discount rounds `4t/5` exactly as integer arithmetic does. */
  lemma DiscountRounding(t: nat)
    ensures Round(t as real * 0.8) == (4 * t + 2) / 5
  {
    var q := (4 * t + 2) / 5;
    var m := (4 * t + 2) % 5;
    assert 4 * t + 2 == 5 * q + m && 0 <= m < 5;
    assert t as real * 0.8 + 0.5 == q as real + (2 * m + 1) as real / 10.0;
  }

  /** `0.8 t` is never halfway between two integers, so rounding the exact
      discounted value never meets a tie. */
  lemma DiscountNeverTies(t: int, k: int)
    ensures t as real * 0.8 != k as real + 0.5
  {
    var d := 8 * t - 10 * k - 5;
    assert d == 2 * (4 * t - 5 * k - 3) + 1;
    assert (t as real * 0.8 - (k as real + 0.5)) * 10.0 == d as real;
  }

  lemma RoundShift(x: real, n: int)
    ensures Round(x + n as real) == Round(x) + n
  {
  }

  /** One more connection adds exactly one hop: 15 ms, or 12 ms under the
      discount. So adding a connection never lowers latency. */
  lemma AddConnectionLatency(a: Architecture, k: Connection)
    ensures Latency(a.(connections := a.connections + [k]))
         == Latency(a) + (if CacheDiscount(a.components) then 12 else 15)
  {
    var a' := a.(connections := a.connections + [k]);
    assert RawLatency(a') == RawLatency(a) + 15;
    if CacheDiscount(a.components) {
      assert RawLatency(a') as real * 0.8 == RawLatency(a) as real * 0.8 + 12 as real;
      RoundShift(RawLatency(a) as real * 0.8, 12);
    }
  }

  /** Replacing one component changes the sum by the difference of the two
      entries. */
  lemma {:induction false} SumUpdate(table: Table, cs: seq<Component>, i: int, c: Component)
    requires 0 <= i < |cs|
    ensures Sum(table, cs[i := c]) + Lookup(table, cs[i]) == Sum(table, cs) + Lookup(table, c)
    decreases |cs|
  {
    var n := |cs| - 1;
    var cs' := cs[i := c];
    if i == n {
      assert cs'[..n] == cs[..n];
    } else {
      assert cs'[..n] == cs[..n][i := c];
      assert cs'[n] == cs[n];
      SumUpdate(table, cs[..n], i, c);
    }
  }

  /** One entry never exceeds the sum. */
  lemma {:induction false} SumOne(table: Table, cs: seq<Component>, i: int)
    requires 0 <= i < |cs|
    ensures Lookup(table, cs[i]) <= Sum(table, cs)
    decreases |cs|
  {
    var n := |cs| - 1;
    if i < n {
      assert cs[..n][i] == cs[i];
      SumOne(table, cs[..n], i);
    }
  }

  /** Two distinct entries never exceed the sum together. */
  lemma {:induction false} SumTwo(table: Table, cs: seq<Component>, i: int, j: int)
    requires 0 <= i < |cs| && 0 <= j < |cs| && i != j
    ensures Lookup(table, cs[i]) + Lookup(table, cs[j]) <= Sum(table, cs)
    decreases |cs|
  {
    var n := |cs| - 1;
    if i == n {
      assert cs[..n][j] == cs[j];
      SumOne(table, cs[..n], j);
    } else if j == n {
      assert cs[..n][i] == cs[i];
      SumOne(table, cs[..n], i);
    } else {
      assert cs[..n][i] == cs[i] && cs[..n][j] == cs[j];
      SumTwo(table, cs[..n], i, j);
    }
  }

  /** The design with its `i`th component switched to the `none` option. */
  function SwitchOff(a: Architecture, i: int): Architecture
    requires 0 <= i < |a.components|
  {
    a.(components := a.components[i := a.components[i].(config := NoneConfig)])
  }

  /** Switching off the only active cache of a design whose database has one
      of its own options never lowers latency: the cache's own 5 ms is less
      than the discount it brings, since the raw total is at least 35 ms. */
  lemma DisablingOnlyCacheKeepsLatency(a: Architecture, i: int, j: int)
    requires 0 <= i < |a.components| && a.components[i].kind == Cache && a.components[i].config == Redis
    requires forall k :: 0 <= k < |a.components| && k != i ==>
      !(a.components[k].kind == Cache && a.components[k].config != NoneConfig)
    requires 0 <= j < |a.components| && a.components[j].kind == Database
      && Catalog.ValidConfig(Database, a.components[j].config)
    ensures Latency(a) <= Latency(SwitchOff(a, i))
  {
    var cs := a.components;
    var b := SwitchOff(a, i);
    assert CacheDiscount(cs);
    assert !HasActiveCache(b.components) by {
      forall k | 0 <= k < |b.components|
        ensures !(b.components[k].kind == Cache && b.components[k].config != NoneConfig)
      {
        if k != i { assert b.components[k] == cs[k]; }
      }
    }
    SumUpdate(BaseLatency, cs, i, cs[i].(config := NoneConfig));
    SumTwo(BaseLatency, cs, i, j);
    assert Lookup(BaseLatency, cs[j]) >= 30;
    DiscountRounding(RawLatency(a));
    assert RawLatency(b) + 5 == RawLatency(a);
  }

  /** A design with an SQL database and two Redis caches, unconnected. */
  const TwoCaches := Architecture("two-caches", Ecommerce,
    [ Component("db", Database, Sql, Position(Num(0), Num(0))),
      Component("c1", Cache, Redis, Position(Num(0), Num(100))),
      Component("c2", Cache, Redis, Position(Num(0), Num(200))) ],
    [], 0, 0)

  lemma TwoCachesSums()
    ensures Sum(BaseLatency, TwoCaches.components) == 50
    ensures Sum(BaseLatency, SwitchOff(TwoCaches, 1).components) == 45
  {
    var cs := TwoCaches.components;
    var ds := SwitchOff(TwoCaches, 1).components;
    assert cs == [] + [cs[0]] + [cs[1]] + [cs[2]];
    SumSnoc(BaseLatency, [], cs[0]);
    SumSnoc(BaseLatency, [cs[0]], cs[1]);
    SumSnoc(BaseLatency, [cs[0], cs[1]], cs[2]);
    assert ds == [] + [ds[0]] + [ds[1]] + [ds[2]];
    SumSnoc(BaseLatency, [], ds[0]);
    SumSnoc(BaseLatency, [ds[0]], ds[1]);
    SumSnoc(BaseLatency, [ds[0], ds[1]], ds[2]);
  }

  /** A second active cache keeps the discount alive, so switching one of
      two caches off lowers latency by 4 ms: raw 50 ms discounted to 40,
      then raw 45 ms discounted to 36. */
  lemma DisablingOneOfTwoCaches()
    ensures Latency(TwoCaches) == 40 && Latency(SwitchOff(TwoCaches, 1)) == 36
  {
    var cs := TwoCaches.components;
    var ds := SwitchOff(TwoCaches, 1).components;
    TwoCachesSums();
    assert CacheDiscount(cs) by { assert cs[1].kind == Cache && cs[0].kind == Database; }
    assert CacheDiscount(ds) by { assert ds[2].kind == Cache && ds[2].config == Redis && ds[0].kind == Database; }
    DiscountRounding(50);
    DiscountRounding(45);
  }

  /** `calculateLatency` step by step: accumulate the base latencies in a
      loop, add the hops, then apply the discount. */
  method CalculateLatency(a: Architecture) returns (latency: int)
    ensures latency == Latency(a)
  {
    var total := 0;
    var i := 0;
    while i < |a.components|
      invariant 0 <= i <= |a.components|
      invariant total == Sum(BaseLatency, a.components[..i])
    {
      assert a.components[..i + 1] == a.components[..i] + [a.components[i]];
      SumSnoc(BaseLatency, a.components[..i], a.components[i]);
      total := total + Lookup(BaseLatency, a.components[i]);
      i := i + 1;
    }
    assert a.components[..i] == a.components;
    total := total + |a.connections| * HopLatency;
    var hasCache := HasActiveCache(a.components);
    var hasDatabase := HasDatabase(a.components);
    if hasCache && hasDatabase {
      latency := Round(total as real * 0.8);
    } else {
      latency := total;
    }
  }

  /** The cost metric: the summed base costs, capped at 100. */
  function Cost(a: Architecture): (r: int)
    ensures 0 <= r <= 100
    ensures r <= Sum(BaseCost, a.components)
    ensures Sum(BaseCost, a.components) <= 100 ==> r == Sum(BaseCost, a.components)
    ensures Sum(BaseCost, a.components) >= 100 ==> r == 100
  {
    var total := Sum(BaseCost, a.components);
    if total < 100 then total else 100
  }

  /** Adding a component never makes a design cheaper. */
  lemma AddComponentCost(a: Architecture, c: Component)
    ensures Cost(a) <= Cost(a.(components := a.components + [c]))
  {
    var cs := a.components + [c];
    assert cs[..|cs| - 1] == a.components;
  }

  /** The index `find` stops at: the first component of type `t`, or `|cs|`
      when there is none. */
  function FirstIndex(cs: seq<Component>, t: ComponentType): (i: nat)
    ensures i <= |cs|
    ensures i < |cs| ==> cs[i].kind == t
    ensures forall j :: 0 <= j < i ==> cs[j].kind != t
  {
    if cs == [] then 0
    else if cs[0].kind == t then 0
    else 1 + FirstIndex(cs[1..], t)
  }

  /** `cs.find(c => c.type === t)?.config === option`: only the first
      component of the type is consulted. */
  predicate FirstHas(cs: seq<Component>, t: ComponentType, option: Config) {
    var i := FirstIndex(cs, t);
    i < |cs| && cs[i].config == option
  }

  function Bonus(b: bool, points: int): int {
    if b then points else 0
  }

  /** The scalability metric: baseline 50 plus one bonus per first-found
      backend, cache, queue and frontend option, capped at 100. */
  function Scalability(a: Architecture): (r: int)
    ensures 50 <= r <= 100
  {
    var cs := a.components;
    var score := 50
      + Bonus(FirstHas(cs, Backend, Microservices), 20)
      + Bonus(FirstHas(cs, Cache, Redis), 15)
      + Bonus(FirstHas(cs, Queue, Kafka), 10)
      + Bonus(FirstHas(cs, Frontend, Cdn), 5);
    if score < 100 then score else 100
  }

  /** Scalability reaches 100 exactly when all four first-found options are
      the scalable ones. */
  lemma ScalabilityFullIff(a: Architecture)
    ensures Scalability(a) == 100 <==>
      && FirstHas(a.components, Backend, Microservices)
      && FirstHas(a.components, Cache, Redis)
      && FirstHas(a.components, Queue, Kafka)
      && FirstHas(a.components, Frontend, Cdn)
  {
  }

  /** Appending a component never moves the first component of any type that
      is already present. */
  lemma FirstIndexAppend(cs: seq<Component>, c: Component, t: ComponentType)
    ensures FirstIndex(cs, t) < |cs| ==> FirstIndex(cs + [c], t) == FirstIndex(cs, t)
    ensures FirstIndex(cs, t) == |cs| ==> FirstIndex(cs + [c], t) == (if c.kind == t then |cs| else |cs| + 1)
  {
    var cs' := cs + [c];
    assert forall j :: 0 <= j < |cs| ==> cs'[j] == cs[j];
    assert cs'[|cs|] == c;
  }

  /** A later component of a type already present changes no bonus: with a
      monolith backend first, adding a microservices backend earns nothing. */
  lemma LaterDuplicateIgnored(a: Architecture, c: Component)
    requires FirstIndex(a.components, c.kind) < |a.components|
    ensures Scalability(a.(components := a.components + [c])) == Scalability(a)
  {
    var cs := a.components;
    var cs' := cs + [c];
    forall t: ComponentType, o: Config ensures FirstHas(cs', t, o) == FirstHas(cs, t, o) {
      FirstIndexAppend(cs, c, t);
      if FirstIndex(cs, t) < |cs| {
        assert cs'[FirstIndex(cs, t)] == cs[FirstIndex(cs, t)];
      }
    }
  }

  /** The reliability metric: 100, less 3 per component, plus 5 for an OAuth
      first auth and 5 for an SQL first database, clamped to 0..100. */
  function Reliability(a: Architecture): (r: int)
    ensures 0 <= r <= 100
  {
    var cs := a.components;
    var score := 100 - 3 * |cs|
      + Bonus(FirstHas(cs, Auth, OAuth), 5)
      + Bonus(FirstHas(cs, Database, Sql), 5);
    if score < 0 then 0 else if score > 100 then 100 else score
  }

  /** Every extra component of a type already present is one more failure
      point: reliability drops by at most 3 and never rises. */
  lemma AddComponentReliability(a: Architecture, c: Component)
    requires FirstIndex(a.components, c.kind) < |a.components|
    ensures var r' := Reliability(a.(components := a.components + [c]));
      Reliability(a) - 3 <= r' <= Reliability(a)
  {
    var cs := a.components;
    var cs' := cs + [c];
    forall t: ComponentType, o: Config ensures FirstHas(cs', t, o) == FirstHas(cs, t, o) {
      FirstIndexAppend(cs, c, t);
      if FirstIndex(cs, t) < |cs| {
        assert cs'[FirstIndex(cs, t)] == cs[FirstIndex(cs, t)];
      }
    }
  }

  /** Latency on a 0..100 higher-is-better scale: `max(0, 100 - latency/5)`. */
  function LatencyScore(latency: int): real {
    var s := 100.0 - latency as real / 5.0;
    if s < 0.0 then 0.0 else s
  }

  /** One term of the weighted average. */
  function Weighted(score: real, weight: real): real {
    score * weight
  }

  /** The weighted overall score, computed from the already rounded metrics.
      Under weights that are non-negative and sum to 1, and metrics in their
      ranges, it is a percentage. */
  function OverallScore(latency: int, cost: int, scalability: int, reliability: int, w: Weights): (r: int)
    ensures ConvexWeights(w) && 0 <= latency && 0 <= cost <= 100 && 0 <= scalability <= 100 && 0 <= reliability <= 100
      ==> 0 <= r <= 100
  {
    var s1, s2, s3, s4 := LatencyScore(latency), (100 - cost) as real, scalability as real, reliability as real;
    var r := Round(Weighted(s1, w.latency) + Weighted(s2, w.cost) + Weighted(s3, w.scalability) + Weighted(s4, w.reliability));
    if ConvexWeights(w) && 0 <= latency && 0 <= cost <= 100 && 0 <= scalability <= 100 && 0 <= reliability <= 100 then
      WeightedSumBound(s1, s2, s3, s4, w);
      r
    else
      r
  }

  lemma WeightedBound(s: real, w: real)
    requires 0.0 <= s <= 100.0 && 0.0 <= w
    ensures 0.0 <= Weighted(s, w) <= 100.0 * w
  {
    assert Weighted(s, w) == s * w;
  }

  /** A convex combination of four values in 0..100 rounds into 0..100. */
  lemma WeightedSumBound(s1: real, s2: real, s3: real, s4: real, w: Weights)
    requires ConvexWeights(w)
    requires 0.0 <= s1 <= 100.0 && 0.0 <= s2 <= 100.0 && 0.0 <= s3 <= 100.0 && 0.0 <= s4 <= 100.0
    ensures 0 <= Round(Weighted(s1, w.latency) + Weighted(s2, w.cost) + Weighted(s3, w.scalability) + Weighted(s4, w.reliability)) <= 100
  {
    WeightedBound(s1, w.latency);
    WeightedBound(s2, w.cost);
    WeightedBound(s3, w.scalability);
    WeightedBound(s4, w.reliability);
  }

  /** A lower latency never lowers the overall score, whatever the other
      metrics, as long as the weights are non-negative. */
  lemma OverallScoreLatencyMonotone(l1: int, l2: int, cost: int, scalability: int, reliability: int, w: Weights)
    requires l1 <= l2 && 0.0 <= w.latency
    ensures OverallScore(l2, cost, scalability, reliability, w) <= OverallScore(l1, cost, scalability, reliability, w)
  {
    assert LatencyScore(l2) <= LatencyScore(l1);
    assert Weighted(LatencyScore(l2), w.latency) <= Weighted(LatencyScore(l1), w.latency) by {
      assert Weighted(LatencyScore(l2), w.latency) == LatencyScore(l2) * w.latency;
      assert Weighted(LatencyScore(l1), w.latency) == LatencyScore(l1) * w.latency;
    }
  }

  /** `calculateMetrics`: the four metrics in order, then the overall score
      from the rounded values. */
  function CalculateMetrics(a: Architecture, s: Scenario): (m: Metrics)
    ensures m.latency >= 0 && 0 <= m.cost <= 100 && 50 <= m.scalability <= 100 && 0 <= m.reliability <= 100
    ensures ConvexWeights(s.weights) ==> MetricsInRange(m)
  {
    var latency := Latency(a);
    var cost := Cost(a);
    var scalability := Scalability(a);
    var reliability := Reliability(a);
    var m := Metrics(latency, cost, scalability, reliability,
                     OverallScore(latency, cost, scalability, reliability, s.weights));
    m
  }

  /** The (type, option) pairs of a component list, in order. */
  function Shape(cs: seq<Component>): seq<(ComponentType, Config)> {
    seq(|cs|, i requires 0 <= i < |cs| => (cs[i].kind, cs[i].config))
  }

  lemma {:induction false} SumShape(table: Table, cs1: seq<Component>, cs2: seq<Component>)
    requires Shape(cs1) == Shape(cs2)
    ensures Sum(table, cs1) == Sum(table, cs2)
  {
    if cs1 != [] {
      assert |cs1| == |Shape(cs1)| == |cs2|;
      var n := |cs1| - 1;
      assert Shape(cs1)[n] == Shape(cs2)[n];
      assert Shape(cs1[..n]) == Shape(cs1)[..n] == Shape(cs2)[..n] == Shape(cs2[..n]);
      SumShape(table, cs1[..n], cs2[..n]);
    }
  }

  lemma {:induction false} FirstIndexShape(cs1: seq<Component>, cs2: seq<Component>, t: ComponentType)
    requires Shape(cs1) == Shape(cs2)
    ensures FirstIndex(cs1, t) == FirstIndex(cs2, t)
  {
    assert |cs1| == |Shape(cs1)| == |cs2|;
    if cs1 != [] {
      assert Shape(cs1)[0] == Shape(cs2)[0];
      assert Shape(cs1[1..]) == Shape(cs1)[1..] == Shape(cs2)[1..] == Shape(cs2[1..]);
      FirstIndexShape(cs1[1..], cs2[1..], t);
    }
  }

  /** Lists of the same shape agree on every existence test and on every
      first-found option. */
  lemma SameShapeFacts(cs1: seq<Component>, cs2: seq<Component>)
    requires Shape(cs1) == Shape(cs2)
    ensures HasActiveCache(cs1) == HasActiveCache(cs2) && HasDatabase(cs1) == HasDatabase(cs2)
    ensures forall t: ComponentType, o: Config :: FirstHas(cs1, t, o) == FirstHas(cs2, t, o)
  {
    assert |cs1| == |Shape(cs1)| == |cs2|;
    forall i | 0 <= i < |cs1| ensures cs1[i].kind == cs2[i].kind && cs1[i].config == cs2[i].config {
      assert Shape(cs1)[i] == Shape(cs2)[i];
    }
    forall t: ComponentType, o: Config ensures FirstHas(cs1, t, o) == FirstHas(cs2, t, o) {
      FirstIndexShape(cs1, cs2, t);
    }
  }

  /** Metrics read only the ordered (type, option) pairs and the number of
      connections: ids, positions and connection endpoints never matter. */
  lemma MetricsIgnoreLayout(a: Architecture, b: Architecture, s: Scenario)
    requires Shape(a.components) == Shape(b.components)
    requires |a.connections| == |b.connections|
    ensures CalculateMetrics(a, s) == CalculateMetrics(b, s)
  {
    LatencyIgnoresLayout(a, b);
    ScoresIgnoreLayout(a, b);
  }

  lemma ScoresIgnoreLayout(a: Architecture, b: Architecture)
    requires Shape(a.components) == Shape(b.components)
    ensures Cost(a) == Cost(b) && Scalability(a) == Scalability(b) && Reliability(a) == Reliability(b)
  {
    SameShapeFacts(a.components, b.components);
    SumShape(BaseCost, a.components, b.components);
    assert |a.components| == |Shape(a.components)| == |b.components|;
  }

  lemma LatencyIgnoresLayout(a: Architecture, b: Architecture)
    requires Shape(a.components) == Shape(b.components)
    requires |a.connections| == |b.connections|
    ensures Latency(a) == Latency(b)
  {
    SameShapeFacts(a.components, b.components);
    SumShape(BaseLatency, a.components, b.components);
  }

  /** The chat fixture: a CDN frontend, a microservices backend, an SQL
      database and a Redis cache joined by three connections. */
  const ChatFixture := Architecture("fixture", Chat,
    [ Component("fe", Frontend, Cdn, Position(Num(0), Num(0))),
      Component("be", Backend, Microservices, Position(Num(200), Num(0))),
      Component("db", Database, Sql, Position(Num(400), Num(0))),
      Component("ca", Cache, Redis, Position(Num(400), Num(200))) ],
    [ Connection("c1", "fe", "be"), Connection("c2", "be", "db"), Connection("c3", "be", "ca") ],
    0, 0)

  lemma SumSnoc(table: Table, cs: seq<Component>, c: Component)
    ensures Sum(table, cs + [c]) == Sum(table, cs) + Lookup(table, c)
  {
    assert (cs + [c])[..|cs|] == cs;
  }

  lemma ChatFixtureSums()
    ensures Sum(BaseLatency, ChatFixture.components) == 115
    ensures Sum(BaseCost, ChatFixture.components) == 110
  {
    var cs := ChatFixture.components;
    assert cs == [] + [cs[0]] + [cs[1]] + [cs[2]] + [cs[3]];
    SumSnoc(BaseLatency, [], cs[0]);
    SumSnoc(BaseLatency, [cs[0]], cs[1]);
    SumSnoc(BaseLatency, [cs[0], cs[1]], cs[2]);
    SumSnoc(BaseLatency, [cs[0], cs[1], cs[2]], cs[3]);
    SumSnoc(BaseCost, [], cs[0]);
    SumSnoc(BaseCost, [cs[0]], cs[1]);
    SumSnoc(BaseCost, [cs[0], cs[1]], cs[2]);
    SumSnoc(BaseCost, [cs[0], cs[1], cs[2]], cs[3]);
  }

  lemma ChatFixtureFirsts()
    ensures FirstIndex(ChatFixture.components, Frontend) == 0
    ensures FirstIndex(ChatFixture.components, Backend) == 1
    ensures FirstIndex(ChatFixture.components, Database) == 2
    ensures FirstIndex(ChatFixture.components, Cache) == 3
    ensures FirstIndex(ChatFixture.components, Queue) == 4
    ensures FirstIndex(ChatFixture.components, Auth) == 4
  {
    var cs := ChatFixture.components;
    assert cs[1..][1..][1..][1..] == [];
  }

  lemma ChatFixtureComponentMetrics()
    ensures Latency(ChatFixture) == 128 && Cost(ChatFixture) == 100
    ensures Scalability(ChatFixture) == 90 && Reliability(ChatFixture) == 93
  {
    ChatFixtureSumMetrics();
    ChatFixtureBonusMetrics();
  }

  lemma ChatFixtureSumMetrics()
    ensures Latency(ChatFixture) == 128 && Cost(ChatFixture) == 100
  {
    var cs := ChatFixture.components;
    ChatFixtureSums();
    assert cs[3].kind == Cache && cs[3].config == Redis && cs[2].kind == Database;
    assert CacheDiscount(cs);
    DiscountRounding(160);
  }

  lemma ChatFixtureBonusMetrics()
    ensures Scalability(ChatFixture) == 90 && Reliability(ChatFixture) == 93
  {
    var cs := ChatFixture.components;
    ChatFixtureFirsts();
    assert FirstHas(cs, Backend, Microservices) && FirstHas(cs, Cache, Redis) && FirstHas(cs, Frontend, Cdn);
    assert !FirstHas(cs, Queue, Kafka) && !FirstHas(cs, Auth, OAuth) && FirstHas(cs, Database, Sql);
  }

  lemma ChatFixtureOverall()
    ensures OverallScore(128, 100, 90, 93, Catalog.ScenarioDef(Chat).weights) == 75
  {
    var w := Catalog.ScenarioDef(Chat).weights;
    assert LatencyScore(128) == 74.4;
    assert Weighted(74.4, w.latency) == 29.76;
    assert Weighted(0.0, w.cost) == 0.0;
    assert Weighted(90.0, w.scalability) == 27.0;
    assert Weighted(93.0, w.reliability) == 18.6;
    assert Round(75.36) == 75;
  }

  /** Under the chat weights the fixture scores latency 128 (160 ms less the
      20% discount), cost 100 (110 capped), scalability 90, reliability 93 and
      overall 75 (75.36 rounded). */
  lemma ChatFixtureMetrics()
    ensures CalculateMetrics(ChatFixture, Catalog.ScenarioDef(Chat)) == Metrics(128, 100, 90, 93, 75)
  {
    ChatFixtureComponentMetrics();
    ChatFixtureOverall();
  }
}

=== FILE: seqs.dfy ===
/** Sequence helpers shared by the model: the JavaScript `filter` the stores
    use, "no duplicates", and the set of a sequence's elements (what
    `new Set(array)` builds). */
module Seqs {

  /** No element occurs twice. */
  predicate Distinct<T(==)>(s: seq<T>) {
    forall i, j :: 0 <= i < j < |s| ==> s[i] != s[j]
  }

  /** The elements of `s` as a set, as `new Set(s)` collects them. */
  function Elements<T(==)>(s: seq<T>): set<T> {
    set x | x in s
  }

  /** `s.filter(keep)`: the elements that satisfy `keep`, in their original
      order. The one-element case, the empty case (from the length bound)
      and `FilterConcat` together determine the result on every list. */
  function Filter<T(==,!new)>(s: seq<T>, keep: T -> bool): (r: seq<T>)
    ensures |r| <= |s|
    ensures |s| == 1 ==> r == (if keep(s[0]) then s else [])
    ensures forall x :: x in r <==> x in s && keep(x)
  {
    if s == [] then []
    else if keep(s[0]) then [s[0]] + Filter(s[1..], keep)
    else Filter(s[1..], keep)
  }

  /** Filtering with a predicate every element passes changes nothing. */
  lemma {:induction false} FilterKeepsAll<T(!new)>(s: seq<T>, keep: T -> bool)
    requires forall i :: 0 <= i < |s| ==> keep(s[i])
    ensures Filter(s, keep) == s
  {
    if s != [] {
      FilterKeepsAll(s[1..], keep);
    }
  }

  /** Filtering a concatenation filters each part and keeps the parts in order:
      the survivors of an earlier segment precede those of a later one. */
  lemma {:induction false} FilterConcat<T(!new)>(a: seq<T>, b: seq<T>, keep: T -> bool)
    ensures Filter(a + b, keep) == Filter(a, keep) + Filter(b, keep)
  {
    if a == [] {
      assert a + b == b;
    } else {
      assert (a + b)[0] == a[0];
      assert (a + b)[1..] == a[1..] + b;
      FilterConcat(a[1..], b, keep);
    }
  }

  /** Filtering never introduces a duplicate. */
  lemma {:induction false} FilterDistinct<T(!new)>(s: seq<T>, keep: T -> bool)
    requires Distinct(s)
    ensures Distinct(Filter(s, keep))
  {
    if s != [] {
      var t := s[1..];
      assert Distinct(t) by {
        forall i, j | 0 <= i < j < |t| ensures t[i] != t[j] {
          assert t[i] == s[i + 1] && t[j] == s[j + 1];
        }
      }
      FilterDistinct(t, keep);
      if keep(s[0]) {
        var r := [s[0]] + Filter(t, keep);
        forall j | 0 <= j < |t| ensures t[j] != s[0] {
          assert t[j] == s[j + 1];
        }
        forall i, j | 0 <= i < j < |r| ensures r[i] != r[j] {
          if i == 0 {
            assert r[j] in Filter(t, keep);
          } else {
            assert r[i] == Filter(t, keep)[i - 1] && r[j] == Filter(t, keep)[j - 1];
          }
        }
      }
    }
  }

  /** A set built from a sequence is never larger than the sequence. */
  lemma {:induction false} ElementsBound<T>(s: seq<T>)
    ensures |Elements(s)| <= |s|
  {
    if s != [] {
      ElementsBound(s[1..]);
      assert Elements(s) == {s[0]} + Elements(s[1..]);
    }
  }

  /** The set built from a sequence is exactly as large as the sequence iff the
      sequence has no duplicates: the size comparison the validator performs
      detects duplicate ids and nothing else. */
  lemma {:induction false} SameSizeIffDistinct<T>(s: seq<T>)
    ensures |Elements(s)| == |s| <==> Distinct(s)
  {
    if s != [] {
      var t := s[1..];
      assert Elements(s) == {s[0]} + Elements(t);
      SameSizeIffDistinct(t);
      if s[0] in t {
        ElementsBound(t);
        var j :| 0 <= j < |t| && t[j] == s[0];
        assert s[0] == s[j + 1];
        assert Elements(s) == Elements(t);
      } else {
        assert s[0] !in Elements(t);
        assert Distinct(s) <==> Distinct(t) by {
          if Distinct(s) {
            forall i, j | 0 <= i < j < |t| ensures t[i] != t[j] {
              assert t[i] == s[i + 1] && t[j] == s[j + 1];
            }
          }
          if Distinct(t) {
            forall i, j | 0 <= i < j < |s| ensures s[i] != s[j] {
              if i == 0 {
                assert s[j] == t[j - 1];
              } else {
                assert s[i] == t[i - 1] && s[j] == t[j - 1];
              }
            }
          }
        }
      }
    }
  }
}

=== FILE: ui_store.dfy ===
/** The interface store: panel visibility, compare mode, and the builds
    picked for side-by-side comparison, of which there are at most three. */
module UIStore {
  import opened Seqs

  /** The most builds that can be compared at once. */
  const MaxCompared: nat := 3

  datatype State = State(
    isPaletteOpen: bool,
    isConfigPanelOpen: bool,
    isCompareMode: bool,
    selectedBuildsForComparison: seq<string>)

  /** The palette starts open and everything else closed or empty. */
  const Initial := State(true, false, false, [])

  /** The comparison selection names each build once and at most three. */
  predicate Valid(st: State) {
    |st.selectedBuildsForComparison| <= MaxCompared && Distinct(st.selectedBuildsForComparison)
  }

  /** `togglePalette`: flip the palette and nothing else. */
  function TogglePalette(st: State): (r: State)
    ensures r.isPaletteOpen != st.isPaletteOpen
    ensures r.(isPaletteOpen := st.isPaletteOpen) == st
  {
    st.(isPaletteOpen := !st.isPaletteOpen)
  }

  /** `toggleConfigPanel`: flip the configuration panel and nothing else. */
  function ToggleConfigPanel(st: State): (r: State)
    ensures r.isConfigPanelOpen != st.isConfigPanelOpen
    ensures r.(isConfigPanelOpen := st.isConfigPanelOpen) == st
  {
    st.(isConfigPanelOpen := !st.isConfigPanelOpen)
  }

  /** `setCompareMode`: entering or leaving compare mode clears the selection
      either way. */
  function SetCompareMode(st: State, mode: bool): (r: State)
    ensures r.isCompareMode == mode && r.selectedBuildsForComparison == [] && Valid(r)
    ensures r.isPaletteOpen == st.isPaletteOpen && r.isConfigPanelOpen == st.isConfigPanelOpen
  {
    st.(isCompareMode := mode, selectedBuildsForComparison := [])
  }

  function OtherId(id: string): string -> bool {
    (x: string) => x != id
  }

  /** `toggleBuildForComparison`: a selected build is deselected; an
      unselected one is appended unless three are already selected, in
      which case nothing happens. */
  function ToggleBuildForComparison(st: State, id: string): (r: State)
    ensures var sel, sel' := st.selectedBuildsForComparison, r.selectedBuildsForComparison;
      && (id in sel' <==> id !in sel && |sel| < MaxCompared)
      && (forall x :: x != id ==> (x in sel' <==> x in sel))
      && (|sel| <= MaxCompared ==> |sel'| <= MaxCompared)
      && (id in sel ==> sel' == Filter(sel, OtherId(id)))
      && (id !in sel && |sel| < MaxCompared ==> |sel'| == |sel| + 1 && sel'[..|sel|] == sel && sel'[|sel|] == id)
    ensures r.(selectedBuildsForComparison := st.selectedBuildsForComparison) == st
  {
    var sel := st.selectedBuildsForComparison;
    if id in sel then st.(selectedBuildsForComparison := Filter(sel, OtherId(id)))
    else if |sel| >= MaxCompared then st
    else st.(selectedBuildsForComparison := sel + [id])
  }

  /** `clearComparisonSelection`: empty the selection and nothing else. */
  function ClearComparisonSelection(st: State): (r: State)
    ensures r.selectedBuildsForComparison == [] && Valid(r)
    ensures r.(selectedBuildsForComparison := st.selectedBuildsForComparison) == st
  {
    st.(selectedBuildsForComparison := [])
  }

  datatype Action =
    | DoTogglePalette
    | DoToggleConfigPanel
    | DoSetCompareMode(mode: bool)
    | DoToggleBuild(id: string)
    | DoClearComparison

  function Step(st: State, act: Action): State {
    match act
    case DoTogglePalette => TogglePalette(st)
    case DoToggleConfigPanel => ToggleConfigPanel(st)
    case DoSetCompareMode(mode) => SetCompareMode(st, mode)
    case DoToggleBuild(id) => ToggleBuildForComparison(st, id)
    case DoClearComparison => ClearComparisonSelection(st)
  }

  function Run(st: State, acts: seq<Action>): State
    decreases |acts|
  {
    if acts == [] then st else Run(Step(st, acts[0]), acts[1..])
  }

  /** Every action keeps the selection duplicate-free and within the cap. */
  lemma StepPreservesValid(st: State, act: Action)
    requires Valid(st)
    ensures Valid(Step(st, act))
  {
    if act.DoToggleBuild? {
      var sel := st.selectedBuildsForComparison;
      var id := act.id;
      if id in sel {
        FilterDistinct(sel, OtherId(id));
      } else if |sel| < MaxCompared {
        var sel' := sel + [id];
        forall i, j | 0 <= i < j < |sel'| ensures sel'[i] != sel'[j] {
          if j == |sel| {
            assert sel'[i] == sel[i];
          } else {
            assert sel'[i] == sel[i] && sel'[j] == sel[j];
          }
        }
      }
    }
  }

  /** Every state reached from a valid state is valid. */
  lemma {:induction false} RunPreservesValid(st: State, acts: seq<Action>)
    requires Valid(st)
    ensures Valid(Run(st, acts))
    decreases |acts|
  {
    if acts != [] {
      StepPreservesValid(st, acts[0]);
      RunPreservesValid(Step(st, acts[0]), acts[1..]);
    }
  }

  /** The store starts with an empty selection, so every state it reaches
      is valid. */
  lemma ReachableValid(acts: seq<Action>)
    ensures Valid(Run(Initial, acts))
  {
    RunPreservesValid(Initial, acts);
  }

  /** Selecting a build that fits and then toggling it again gives back the
      selection. */
  lemma ToggleTwiceRestores(st: State, id: string)
    requires id !in st.selectedBuildsForComparison && |st.selectedBuildsForComparison| < MaxCompared
    ensures ToggleBuildForComparison(ToggleBuildForComparison(st, id), id) == st
  {
    var sel := st.selectedBuildsForComparison;
    var keep := OtherId(id);
    assert forall i :: 0 <= i < |sel| ==> keep(sel[i]);
    FilterConcat(sel, [id], keep);
    FilterKeepsAll(sel, keep);
    assert !keep(id);
    assert Filter([id], keep) == Filter([id][1..], keep);
  }

  /** The panel toggles undo themselves and touch nothing else. */
  lemma TogglesAreInvolutions(st: State)
    ensures TogglePalette(TogglePalette(st)) == st
    ensures ToggleConfigPanel(ToggleConfigPanel(st)) == st
    ensures TogglePalette(st).isPaletteOpen != st.isPaletteOpen
    ensures TogglePalette(st).(isPaletteOpen := st.isPaletteOpen) == st
    ensures ToggleConfigPanel(st).isConfigPanelOpen != st.isConfigPanelOpen
    ensures ToggleConfigPanel(st).(isConfigPanelOpen := st.isConfigPanelOpen) == st
  {
  }

  /** With a full selection, an unselected build cannot be added. */
  lemma FullSelectionRefuses(st: State, id: string)
    requires id !in st.selectedBuildsForComparison && |st.selectedBuildsForComparison| >= MaxCompared
    ensures ToggleBuildForComparison(st, id) == st
  {
  }
}

=== FILE: validation.dfy ===
/** Structural validation of a design: it must have a component, every
    connection must join existing components, component ids and connection
    ids must be unique, and no component may sit at a NaN coordinate. The
    validator reports every problem it finds, in a fixed order. */
module Validation {
  import opened Models
  import opened Seqs

  /** One reported problem; `Text` gives the message the user sees. */
  datatype ValidationError =
    | NoComponents
    | MissingSource(source: string)
    | MissingTarget(target: string)
    | DuplicateComponentIds
    | DuplicateConnectionIds
    | NaNPosition(componentId: string)

  function Text(e: ValidationError): string {
    match e
    case NoComponents => "Architecture must have at least one component"
    case MissingSource(id) => "Connection source " + id + " does not exist"
    case MissingTarget(id) => "Connection target " + id + " does not exist"
    case DuplicateComponentIds => "Component IDs must be unique"
    case DuplicateConnectionIds => "Connection IDs must be unique"
    case NaNPosition(id) => "Component " + id + " has NaN position"
  }

  /** Both ends of `k` name components of `cs`. */
  predicate Attached(k: Connection, cs: seq<Component>) {
    HasComponentId(cs, k.source) && HasComponentId(cs, k.target)
  }

  /** No connection of `ks` dangles. */
  predicate NoDanglingEndpoints(ks: seq<Connection>, cs: seq<Component>) {
    forall i :: 0 <= i < |ks| ==> Attached(ks[i], cs)
  }

  predicate HasNaN(c: Component) {
    c.position.x == NaN || c.position.y == NaN
  }

  /** The errors one connection contributes: its source first, then its target. */
  function ConnectionErrors(k: Connection, cs: seq<Component>): (r: seq<ValidationError>)
    ensures |r| <= 2
    ensures r == [] <==> Attached(k, cs)
    ensures MissingSource(k.source) in r <==> !HasComponentId(cs, k.source)
    ensures MissingTarget(k.target) in r <==> !HasComponentId(cs, k.target)
    ensures forall e :: e in r ==> e == MissingSource(k.source) || e == MissingTarget(k.target)
  {
    (if HasComponentId(cs, k.source) then [] else [MissingSource(k.source)])
    + (if HasComponentId(cs, k.target) then [] else [MissingTarget(k.target)])
  }

  /** The connection loop, in connection order. An endpoint error is reported
      for exactly the dangling ends. */
  function EndpointErrors(ks: seq<Connection>, cs: seq<Component>): (r: seq<ValidationError>)
    ensures r == [] <==> NoDanglingEndpoints(ks, cs)
    ensures |r| <= 2 * |ks|
    ensures |ks| == 1 ==> r == ConnectionErrors(ks[0], cs)
    ensures forall e :: e in r <==> exists i :: 0 <= i < |ks| && e in ConnectionErrors(ks[i], cs)
  {
    if ks == [] then []
    else
      var rest := EndpointErrors(ks[1..], cs);
      assert forall i :: 1 <= i < |ks| ==> ks[i] == ks[1..][i - 1];
      assert forall i :: 0 <= i < |ks| - 1 ==> ks[1..][i] == ks[i + 1];
      ConnectionErrors(ks[0], cs) + rest
  }

  /** The position loop, in component order: one error per component with a
      NaN coordinate, naming it. */
  function PositionErrors(cs: seq<Component>): (r: seq<ValidationError>)
    ensures r == [] <==> forall i :: 0 <= i < |cs| ==> !HasNaN(cs[i])
    ensures |r| <= |cs|
    ensures |cs| == 1 ==> r == (if HasNaN(cs[0]) then [NaNPosition(cs[0].id)] else [])
    ensures forall e :: e in r <==> exists i :: 0 <= i < |cs| && HasNaN(cs[i]) && e == NaNPosition(cs[i].id)
  {
    if cs == [] then []
    else
      var rest := PositionErrors(cs[1..]);
      assert forall i :: 1 <= i < |cs| ==> cs[i] == cs[1..][i - 1];
      assert forall i :: 0 <= i < |cs| - 1 ==> cs[1..][i] == cs[i + 1];
      (if HasNaN(cs[0]) then [NaNPosition(cs[0].id)] else []) + rest
  }

  /** The connection loop over two runs of connections reports the first
      run's errors, then the second's: with the one-connection case, this
      fixes both the order of the messages and their number, one per
      dangling end of every connection. */
  lemma {:induction false} EndpointErrorsAppend(ks1: seq<Connection>, ks2: seq<Connection>, cs: seq<Component>)
    ensures EndpointErrors(ks1 + ks2, cs) == EndpointErrors(ks1, cs) + EndpointErrors(ks2, cs)
  {
    if ks1 != [] {
      var ks := ks1 + ks2;
      assert ks[0] == ks1[0] && ks[1..] == ks1[1..] + ks2;
      var head, rest1, rest2 := ConnectionErrors(ks1[0], cs), EndpointErrors(ks1[1..], cs), EndpointErrors(ks2, cs);
      calc {
        EndpointErrors(ks, cs);
        head + EndpointErrors(ks1[1..] + ks2, cs);
        { EndpointErrorsAppend(ks1[1..], ks2, cs); }
        head + (rest1 + rest2);
        (head + rest1) + rest2;
      }
    } else {
      assert ks1 + ks2 == ks2;
    }
  }

  /** The position loop likewise reports the components in order, one error
      for each component with a NaN coordinate. */
  lemma {:induction false} PositionErrorsAppend(cs1: seq<Component>, cs2: seq<Component>)
    ensures PositionErrors(cs1 + cs2) == PositionErrors(cs1) + PositionErrors(cs2)
  {
    if cs1 != [] {
      var cs := cs1 + cs2;
      assert cs[0] == cs1[0] && cs[1..] == cs1[1..] + cs2;
      PositionErrorsAppend(cs1[1..], cs2);
    } else {
      assert cs1 + cs2 == cs2;
    }
  }

  /** The empty check. */
  function EmptyErrors(cs: seq<Component>): seq<ValidationError> {
    if |cs| == 0 then [NoComponents] else []
  }

  /** A uniqueness check: a list of ids is unique when it has as many
      elements as the set built from it. */
  function UniquenessErrors(ids: seq<string>, err: ValidationError): (r: seq<ValidationError>)
    ensures r == [] <==> Distinct(ids)
    ensures r == [] || r == [err]
  {
    SameSizeIffDistinct(ids);
    if |ids| != |Elements(ids)| then [err] else []
  }

  /** `validateArchitecture`: the empty check, the connection loop, the two
      uniqueness checks, then the position loop. It reports nothing exactly
      for a well-formed design. */
  function Validate(a: Architecture): (r: seq<ValidationError>)
    ensures r == [] <==> WellFormed(a)
  {
    EmptyErrors(a.components)
    + EndpointErrors(a.connections, a.components)
    + UniquenessErrors(ComponentIds(a.components), DuplicateComponentIds)
    + UniquenessErrors(ConnectionIds(a.connections), DuplicateConnectionIds)
    + PositionErrors(a.components)
  }

  /** The messages `validateArchitecture` returns, one per error in the
      order found; there are none exactly for a well-formed design. */
  function Messages(a: Architecture): (r: seq<string>)
    ensures |r| == |Validate(a)|
    ensures r == [] <==> WellFormed(a)
    ensures forall i :: 0 <= i < |r| ==> r[i] == Text(Validate(a)[i])
  {
    var errs := Validate(a);
    seq(|errs|, i requires 0 <= i < |errs| => Text(errs[i]))
  }

  /** The position of each check in `validateArchitecture`: the empty check,
      the connection loop, the component ids, the connection ids, the
      positions. */
  function Rank(e: ValidationError): nat {
    match e
    case NoComponents => 0
    case MissingSource(_) => 1
    case MissingTarget(_) => 1
    case DuplicateComponentIds => 2
    case DuplicateConnectionIds => 3
    case NaNPosition(_) => 4
  }

  /** The filter test picking one check's errors. */
  function HasRank(k: nat): ValidationError -> bool {
    (e: ValidationError) => Rank(e) == k
  }

  /** No error of a later check comes before one of an earlier check. */
  predicate InCheckOrder(s: seq<ValidationError>) {
    forall i, j :: 0 <= i < j < |s| ==> Rank(s[i]) <= Rank(s[j])
  }

  /** Every error of `s` comes from a check between `lo` and `hi`. */
  predicate RanksWithin(s: seq<ValidationError>, lo: nat, hi: nat) {
    forall e :: e in s ==> lo <= Rank(e) <= hi
  }

  /** Two runs in check order, the first's checks no later than the
      second's, join in check order. */
  lemma InCheckOrderConcat(s: seq<ValidationError>, t: seq<ValidationError>, lo: nat, mid: nat, hi: nat)
    requires InCheckOrder(s) && InCheckOrder(t)
    requires lo <= mid <= hi && RanksWithin(s, lo, mid) && RanksWithin(t, mid, hi)
    ensures InCheckOrder(s + t) && RanksWithin(s + t, lo, hi)
  {
    var u := s + t;
    forall i, j | 0 <= i < j < |u| ensures Rank(u[i]) <= Rank(u[j]) {
      if j < |s| {
        assert u[i] == s[i] && u[j] == s[j];
      } else if i >= |s| {
        assert u[i] == t[i - |s|] && u[j] == t[j - |s|];
      } else {
        assert u[i] == s[i] && u[j] == t[j - |s|];
        assert u[i] in s && u[j] in t;
      }
    }
    forall e | e in u ensures lo <= Rank(e) <= hi {
      assert e in s || e in t;
    }
  }

  /** A run of errors of one check is in check order. */
  lemma OneCheckInOrder(s: seq<ValidationError>, r: nat)
    requires RanksWithin(s, r, r)
    ensures InCheckOrder(s)
  {
    forall i, j | 0 <= i < j < |s| ensures Rank(s[i]) <= Rank(s[j]) {
      assert s[i] in s && s[j] in s;
    }
  }

  /** Filtering a run of errors of one check for that check keeps the run;
      filtering it for any other check leaves nothing. */
  lemma {:induction false} OneCheckFilter(s: seq<ValidationError>, r: nat, k: nat)
    requires RanksWithin(s, r, r)
    ensures Filter(s, HasRank(k)) == if r == k then s else []
  {
    if s != [] {
      var t := s[1..];
      assert RanksWithin(t, r, r) by {
        forall e | e in t ensures r <= Rank(e) <= r {
          assert e in s;
        }
      }
      OneCheckFilter(t, r, k);
      assert Rank(s[0]) == r;
      if r == k {
        assert s == [s[0]] + t;
      }
    }
  }

  /** Filtering five runs filters each run. */
  lemma FilterFive(p1: seq<ValidationError>, p2: seq<ValidationError>, p3: seq<ValidationError>,
                   p4: seq<ValidationError>, p5: seq<ValidationError>, keep: ValidationError -> bool)
    ensures Filter(p1 + p2 + p3 + p4 + p5, keep)
         == Filter(p1, keep) + Filter(p2, keep) + Filter(p3, keep) + Filter(p4, keep) + Filter(p5, keep)
  {
    FilterConcat(p1, p2, keep);
    FilterConcat(p1 + p2, p3, keep);
    FilterConcat(p1 + p2 + p3, p4, keep);
    FilterConcat(p1 + p2 + p3 + p4, p5, keep);
  }

  /** Five runs, one per check and in check order, join in check order. */
  lemma FiveChecksInOrder(p1: seq<ValidationError>, p2: seq<ValidationError>, p3: seq<ValidationError>,
                          p4: seq<ValidationError>, p5: seq<ValidationError>)
    requires RanksWithin(p1, 0, 0) && RanksWithin(p2, 1, 1) && RanksWithin(p3, 2, 2)
    requires RanksWithin(p4, 3, 3) && RanksWithin(p5, 4, 4)
    ensures InCheckOrder(p1 + p2 + p3 + p4 + p5)
  {
    OneCheckInOrder(p1, 0);
    OneCheckInOrder(p2, 1);
    OneCheckInOrder(p3, 2);
    OneCheckInOrder(p4, 3);
    OneCheckInOrder(p5, 4);
    InCheckOrderConcat(p1, p2, 0, 1, 1);
    InCheckOrderConcat(p1 + p2, p3, 0, 2, 2);
    InCheckOrderConcat(p1 + p2 + p3, p4, 0, 3, 3);
    InCheckOrderConcat(p1 + p2 + p3 + p4, p5, 0, 4, 4);
  }

  /** Each check's errors can be taken back out of the join of five runs,
      one per check. */
  lemma FiveChecksFilter(p1: seq<ValidationError>, p2: seq<ValidationError>, p3: seq<ValidationError>,
                         p4: seq<ValidationError>, p5: seq<ValidationError>, k: nat)
    requires RanksWithin(p1, 0, 0) && RanksWithin(p2, 1, 1) && RanksWithin(p3, 2, 2)
    requires RanksWithin(p4, 3, 3) && RanksWithin(p5, 4, 4)
    ensures Filter(p1 + p2 + p3 + p4 + p5, HasRank(k))
         == if k == 0 then p1 else if k == 1 then p2 else if k == 2 then p3 else if k == 3 then p4
            else if k == 4 then p5 else []
  {
    OneCheckFilter(p1, 0, k);
    OneCheckFilter(p2, 1, k);
    OneCheckFilter(p3, 2, k);
    OneCheckFilter(p4, 3, k);
    OneCheckFilter(p5, 4, k);
    FilterFive(p1, p2, p3, p4, p5, HasRank(k));
    var e: seq<ValidationError> := [];
    if k == 0 {
      assert p1 + e + e + e + e == p1;
    } else if k == 1 {
      assert e + p2 + e + e + e == p2;
    } else if k == 2 {
      assert e + e + p3 + e + e == p3;
    } else if k == 3 {
      assert e + e + e + p4 + e == p4;
    } else if k == 4 {
      assert e + e + e + e + p5 == p5;
    } else {
      assert e + e + e + e + e == e;
    }
  }

  /** The connection loop reports only endpoint errors. */
  lemma EndpointErrorsRank(ks: seq<Connection>, cs: seq<Component>)
    ensures RanksWithin(EndpointErrors(ks, cs), 1, 1)
  {
    forall e | e in EndpointErrors(ks, cs) ensures 1 <= Rank(e) <= 1 {
      var i :| 0 <= i < |ks| && e in ConnectionErrors(ks[i], cs);
    }
  }

  /** The empty check reports only its own error. */
  lemma EmptyErrorsRank(cs: seq<Component>)
    ensures RanksWithin(EmptyErrors(cs), 0, 0)
  {
  }

  /** A uniqueness check reports only its own error. */
  lemma UniquenessErrorsRank(ids: seq<string>, err: ValidationError)
    ensures RanksWithin(UniquenessErrors(ids, err), Rank(err), Rank(err))
  {
  }

  /** The position loop reports only position errors. */
  lemma PositionErrorsRank(cs: seq<Component>)
    ensures RanksWithin(PositionErrors(cs), 4, 4)
  {
    forall e | e in PositionErrors(cs) ensures 4 <= Rank(e) <= 4 {
      var i :| 0 <= i < |cs| && HasNaN(cs[i]) && e == NaNPosition(cs[i].id);
    }
  }

  /** Every check reports only errors of its own rank. */
  lemma ChecksRanked(a: Architecture)
    ensures RanksWithin(EmptyErrors(a.components), 0, 0)
    ensures RanksWithin(EndpointErrors(a.connections, a.components), 1, 1)
    ensures RanksWithin(UniquenessErrors(ComponentIds(a.components), DuplicateComponentIds), 2, 2)
    ensures RanksWithin(UniquenessErrors(ConnectionIds(a.connections), DuplicateConnectionIds), 3, 3)
    ensures RanksWithin(PositionErrors(a.components), 4, 4)
  {
    EmptyErrorsRank(a.components);
    EndpointErrorsRank(a.connections, a.components);
    PositionErrorsRank(a.components);
    UniquenessErrorsRank(ComponentIds(a.components), DuplicateComponentIds);
    UniquenessErrorsRank(ConnectionIds(a.connections), DuplicateConnectionIds);
  }

  /** The validator reports the checks in their order: no error of a later
      check precedes one of an earlier check. */
  lemma ValidateInCheckOrder(a: Architecture)
    ensures InCheckOrder(Validate(a))
  {
    ChecksRanked(a);
    FiveChecksInOrder(EmptyErrors(a.components), EndpointErrors(a.connections, a.components),
                      UniquenessErrors(ComponentIds(a.components), DuplicateComponentIds),
                      UniquenessErrors(ConnectionIds(a.connections), DuplicateConnectionIds),
                      PositionErrors(a.components));
  }

  /** The errors of each check, picked out of the validator's list in order,
      are exactly what that check reports. With `ValidateInCheckOrder` this
      fixes the whole list. */
  lemma ValidatePicksOutChecks(a: Architecture, k: nat)
    ensures Filter(Validate(a), HasRank(k))
         == if k == 0 then EmptyErrors(a.components)
            else if k == 1 then EndpointErrors(a.connections, a.components)
            else if k == 2 then UniquenessErrors(ComponentIds(a.components), DuplicateComponentIds)
            else if k == 3 then UniquenessErrors(ConnectionIds(a.connections), DuplicateConnectionIds)
            else if k == 4 then PositionErrors(a.components)
            else []
  {
    ChecksRanked(a);
    FiveChecksFilter(EmptyErrors(a.components), EndpointErrors(a.connections, a.components),
                     UniquenessErrors(ComponentIds(a.components), DuplicateComponentIds),
                     UniquenessErrors(ConnectionIds(a.connections), DuplicateConnectionIds),
                     PositionErrors(a.components), k);
  }

  /** What a valid design is, stated without the validator. */
  predicate WellFormed(a: Architecture) {
    && |a.components| > 0
    && NoDanglingEndpoints(a.connections, a.components)
    && Distinct(ComponentIds(a.components))
    && Distinct(ConnectionIds(a.connections))
    && forall i :: 0 <= i < |a.components| ==> !HasNaN(a.components[i])
  }

  /** An error is reported exactly when one of the five checks reports it. */
  lemma ValidateParts(a: Architecture, e: ValidationError)
    ensures e in Validate(a) <==>
      || (e == NoComponents && a.components == [])
      || e in EndpointErrors(a.connections, a.components)
      || (e == DuplicateComponentIds && !Distinct(ComponentIds(a.components)))
      || (e == DuplicateConnectionIds && !Distinct(ConnectionIds(a.connections)))
      || e in PositionErrors(a.components)
  {
    var p1, p2 := EmptyErrors(a.components), EndpointErrors(a.connections, a.components);
    var p3 := UniquenessErrors(ComponentIds(a.components), DuplicateComponentIds);
    var p4 := UniquenessErrors(ConnectionIds(a.connections), DuplicateConnectionIds);
    var p5 := PositionErrors(a.components);
    assert Validate(a) == p1 + p2 + p3 + p4 + p5;
    assert e in Validate(a) <==> e in p1 || e in p2 || e in p3 || e in p4 || e in p5;
  }

  /** The empty check reports exactly for a design without components. */
  lemma ValidateReportsEmpty(a: Architecture)
    ensures NoComponents in Validate(a) <==> a.components == []
  {
    ValidateParts(a, NoComponents);
    assert NoComponents !in EndpointErrors(a.connections, a.components);
  }

  /** The component-id check reports exactly when two components share an id. */
  lemma ValidateReportsComponentIds(a: Architecture)
    ensures DuplicateComponentIds in Validate(a) <==> !Distinct(ComponentIds(a.components))
  {
    ValidateParts(a, DuplicateComponentIds);
    assert DuplicateComponentIds !in EndpointErrors(a.connections, a.components);
  }

  /** The connection-id check reports exactly when two connections share an id. */
  lemma ValidateReportsConnectionIds(a: Architecture)
    ensures DuplicateConnectionIds in Validate(a) <==> !Distinct(ConnectionIds(a.connections))
  {
    ValidateParts(a, DuplicateConnectionIds);
    assert DuplicateConnectionIds !in EndpointErrors(a.connections, a.components);
  }

  /** The connection loop reports a missing source exactly for a connection
      whose source names no component. */
  lemma EndpointErrorsNameSources(ks: seq<Connection>, cs: seq<Component>, id: string)
    ensures MissingSource(id) in EndpointErrors(ks, cs) <==>
      exists i :: 0 <= i < |ks| && ks[i].source == id && !HasComponentId(cs, id)
  {
    if MissingSource(id) in EndpointErrors(ks, cs) {
      var i :| 0 <= i < |ks| && MissingSource(id) in ConnectionErrors(ks[i], cs);
      assert ks[i].source == id;
    }
    if exists i :: 0 <= i < |ks| && ks[i].source == id && !HasComponentId(cs, id) {
      var i :| 0 <= i < |ks| && ks[i].source == id && !HasComponentId(cs, id);
      assert MissingSource(id) in ConnectionErrors(ks[i], cs);
    }
  }

  /** The connection loop reports a missing target exactly for a connection
      whose target names no component. */
  lemma EndpointErrorsNameTargets(ks: seq<Connection>, cs: seq<Component>, id: string)
    ensures MissingTarget(id) in EndpointErrors(ks, cs) <==>
      exists i :: 0 <= i < |ks| && ks[i].target == id && !HasComponentId(cs, id)
  {
    if MissingTarget(id) in EndpointErrors(ks, cs) {
      var i :| 0 <= i < |ks| && MissingTarget(id) in ConnectionErrors(ks[i], cs);
      assert ks[i].target == id;
    }
    if exists i :: 0 <= i < |ks| && ks[i].target == id && !HasComponentId(cs, id) {
      var i :| 0 <= i < |ks| && ks[i].target == id && !HasComponentId(cs, id);
      assert MissingTarget(id) in ConnectionErrors(ks[i], cs);
    }
  }

  /** The validator reports a missing source, or target, exactly for each
      end that names no component. */
  lemma ValidateReportsEndpoints(a: Architecture, id: string)
    ensures MissingSource(id) in Validate(a) <==>
      exists i :: 0 <= i < |a.connections| && a.connections[i].source == id && !HasComponentId(a.components, id)
    ensures MissingTarget(id) in Validate(a) <==>
      exists i :: 0 <= i < |a.connections| && a.connections[i].target == id && !HasComponentId(a.components, id)
  {
    ValidateParts(a, MissingSource(id));
    ValidateParts(a, MissingTarget(id));
    EndpointErrorsNameSources(a.connections, a.components, id);
    EndpointErrorsNameTargets(a.connections, a.components, id);
  }

  /** A NaN-position error names exactly the components off the numbers. */
  lemma ValidateReportsPositions(a: Architecture, id: string)
    ensures NaNPosition(id) in Validate(a) <==>
      exists i :: 0 <= i < |a.components| && HasNaN(a.components[i]) && a.components[i].id == id
  {
    ValidateParts(a, NaNPosition(id));
    assert NaNPosition(id) !in EndpointErrors(a.connections, a.components);
  }

  /** `isArchitectureValid`: true exactly for well-formed designs. */
  function IsArchitectureValid(a: Architecture): (ok: bool)
    ensures ok <==> WellFormed(a)
  {
    |Validate(a)| == 0
  }
}
